=== FILE: README.md ===
# Article service core, modelled in Dafny

This project models the request-handling core of the Go article service
(`article-services-go`):

- the `Post` record with its `validate` tags (`required`, `min=N`,
  `oneof=publish draft trash`), applied the way go-playground/validator
  applies them: fields in declaration order, tags of a field in order, and at
  most one error per field, namely the first tag it fails;
- `parseValidationError`, which turns the validator's errors into one
  Indonesian message per error and joins the messages with `", "`;
- the seven HTTP handlers `CreatePost`, `GetPosts`, `GetPostsByStatus`,
  `GetPost`, `UpdatePost`, `UpdatePostStatus` and `DeletePost`.

Each handler is a pure transition. It takes the article table, the request
and the storage faults of that request. It returns the status code, the
response body and the table it leaves behind.

The table (`Storage.Store`) is a map from id to `Post` plus the next
auto-increment id. The GORM calls the handlers make are modelled as functions
over it:

- `First`: found, not found, or another error;
- `Count` and `Limit/Offset/Find`: listing in id order;
- `Create` of one row or of a slice. GORM keeps a non-zero id and non-zero
  timestamps the post already carries, fills the zero ones, and fails on an id
  that is already taken;
- `Save`, which overwrites a stored row and otherwise inserts (under the
  post's own id when it has one);
- `Delete`, which GORM refuses without a primary key.

Which storage calls fail is an input (`Storage.Faults`). The clock is an
input too: `now`, a logical time.

JSON decoding is also an input:

- The create handler gets the raw body bytes and the two decoders it may call
  (slice of posts, or one post). The trimming of white space and the dispatch
  on `[` happen on the bytes, as in the source.
- The update and patch handlers get the already-decoded body. `None` stands
  for malformed JSON.

Modules, one file each:

- `Wrappers`: `Option`.
- `Text`: `strings.Join`, cutting at a separator, ASCII `strings.ToLower`.
- `Decimal`: `%d`.
- `Bytes`: `bytes.TrimSpace`.
- `Models`: models.go.
- `ValidationErrors`: `parseValidationError`.
- `Storage`: the table and the GORM calls.
- `Handlers`: handlers.go.
- `HandlerProperties`: lemmas that relate handler calls to each other and to
  the table invariant.

The table invariant `HandlerProperties.Inv` requires:

- the counter is at least 1 (`Storage.Wf`);
- every row sits under its own id, which is at least 1 and below the counter
  (`Storage.Wf`);
- no row was updated before it was created (`Storage.Wf`);
- every row passes validation (`Storage.AllValid`);
- no row was last updated after the clock reading `now` (`Storage.DatedBy`).

Every handler preserves it once corrected. As written, create and patch break
it: create keeps the id and timestamps the client sends, and after a failed
lookup patch stores the zero `Post` with only its status set. The update
handler as written keeps the invariant, because the row it stores after a
failed lookup is the zero `Post` with the body's four valid fields, inserted
under a fresh id; its defect is a 200 for a write to the wrong row. See
Findings.

Some members that model source lines have no row in the table below, because
their contracts are stated by the lemmas about them:

- `ValidationErrors.Message` is the `switch` of handlers.go:52-61, one
  template per tag, with the field lower-cased as on line 51;
- `ValidationErrors.Messages` and `ValidationErrors.Render` are the loop and
  the `strings.Join(msgs, ", ")` of handlers.go:50-63;
- `Storage.Count` is `DB.Model(&Post{}).Count` (handlers.go:140) and, with a
  status filter, the `Where("status = ?")` count of handlers.go:166;
- `Storage.Filled` is GORM's `autoCreateTime`/`autoUpdateTime` on insert
  (models.go:13-14), and `Storage.Stamped` is a row that GORM both numbered
  and dated;
- `Handlers.BatchCreatedMessage` is the message of handlers.go:106.

## Model

| member | source | states |
|---|---|---|
| Models.Violations | article-services-go/models.go:7-15 | `validate.Struct(post)` reports no error exactly when the post is valid: title non-empty and at least 20 characters, content at least 200, category at least 3, status one of the three values. It reports at most four errors. |
| Models.TitleErrors | article-services-go/models.go:9 | An empty title reports `required`, a title shorter than 20 characters reports `min` with parameter `20`, and any other title reports nothing. |
| Models.ContentErrors | article-services-go/models.go:10 | The same for content, with `min` parameter `200`. |
| Models.CategoryErrors | article-services-go/models.go:11 | The same for category, with `min` parameter `3`. |
| Models.StatusErrors | article-services-go/models.go:12 | An empty status reports `required` (not `oneof`). A status other than publish, draft or trash reports `oneof` with parameter `publish draft trash`. The three values report nothing. |
| Models.StatusViolations | article-services-go/handlers.go:246-248 | The status-only PATCH body reports at most one error, and none exactly when the status is one of the three values. |
| Models.RequiredMinErrors | article-services-go/models.go:9-11 | Any field tagged `required,min=N` reports `required` when empty and `min=N` when shorter than N; `required` wins over `min`. |
| Models.FieldErrors | article-services-go/models.go:9-12 | One field contributes at most one error, named after the field, and none exactly when every tag holds. |
| Models.FirstFailing | article-services-go/models.go:9-12 | The reported tag is the first one the value breaks: every earlier tag holds. |
| Models.CheckAll | article-services-go/models.go:9-12 | A list of fields yields at most as many errors as there are fields, and none exactly when all fields pass. |
| Models.ViolationsIgnoreIdAndDates | article-services-go/models.go:7-15 | `ID`, `CreatedDate` and `UpdatedDate` carry no tags: changing them never changes the errors. |
| Models.ViolationsByField | article-services-go/models.go:9-12 | The errors are the title's, then the content's, then the category's, then exactly what the PATCH body would report for the status. |
| Models.ViolationsInFieldOrder | article-services-go/models.go:9-12 | Errors come in strictly increasing declaration rank (title, content, category, status), so no field is reported twice. |
| Models.CheckAllOrdered | article-services-go/models.go:9-12 | Fields visited in increasing rank produce errors in increasing rank. |
| ValidationErrors.ParseValidationError | article-services-go/handlers.go:47-63 | The loop collects one message per error, in order, and joins them with `", "`: its result is the rendering of the whole error list. |
| ValidationErrors.RenderOnePerError | article-services-go/handlers.go:47-63 | Cutting the rendered text at `", "` gives back exactly the messages, one per error, in order. |
| ValidationErrors.ViolationMessages | article-services-go/handlers.go:47-63 | For an invalid post the rendered error text holds as many messages as the post has violations. |
| ValidationErrors.MessageCommaFree | article-services-go/handlers.go:53-61 | No template adds a comma of its own, so the separator cannot appear inside a message. |
| ValidationErrors.ViolationsCommaFree | article-services-go/handlers.go:47-63 | No error the validator can report for a `Post` has a comma in its field name or parameter. |
| ValidationErrors.MessageIgnoresFieldCase | article-services-go/handlers.go:51 | The message names the field in lower case, whatever case the validator uses. |
| ValidationErrors.MessageIgnoresParam | article-services-go/handlers.go:52-61 | Only the `oneof` and `min` templates show the tag parameter. |
| ValidationErrors.MessageNamesField | article-services-go/handlers.go:51-61 | Every message, whatever its tag, starts with `Field '`, then the lower-cased field name, then a closing quote. |
| Text.Join | article-services-go/handlers.go:63 | `strings.Join` of no parts is empty; otherwise its length is the parts' total length plus one separator between each pair. |
| Text.SplitJoin | article-services-go/handlers.go:63 | Joining comma-free parts with `", "` and cutting at `", "` is the identity. |
| Text.ToLowerIdempotent | article-services-go/handlers.go:51 | Lower-casing twice is lower-casing once. |
| Bytes.TrimSpace | article-services-go/handlers.go:79 | The trimmed body is empty exactly when the body is all white space; otherwise it starts and ends with a non-space byte and is a slice of the body. |
| Bytes.TrimSpacePadding | article-services-go/handlers.go:79 | White space added before and after a body does not change the trimmed body. |
| Bytes.TrimSpaceIdempotent | article-services-go/handlers.go:79 | Trimming a trimmed body changes nothing. |
| Bytes.TrimSpaceKeepsFirst | article-services-go/handlers.go:79-85 | A body that starts with a non-space byte keeps that byte first after trimming, so the `[` test sees it. |
| Decimal.ToDecimal | article-services-go/handlers.go:106 | `%d` prints at least one character, all decimal digits, with a leading `0` exactly for zero. |
| Decimal.ParseToDecimal | article-services-go/handlers.go:106 | Reading back the decimal text `%d` prints for n gives n. |
| Decimal.ToDecimalInjective | article-services-go/handlers.go:106 | Different counts print as different text. |
| Handlers.CreatePostAsWritten | article-services-go/handlers.go:72-129 | An unreadable body gives 400 "Tidak bisa membaca body request", and an all-space body gives 400 "Body request kosong". Otherwise the trimmed body goes to the batch branch when its first byte is `[` and to the single branch otherwise, with the posts exactly as decoded. Only 201 changes the table. |
| Handlers.CreatePost | article-services-go/handlers.go:72-129 | The corrected create: the same codes and messages as written, but the batch and single branches receive the decoded posts with `id`, `created_date` and `updated_date` cleared, so the table alone numbers and dates them. |
| Handlers.Unnumber | article-services-go/models.go:7-15 | Clearing a post's id and timestamps leaves it without them and changes none of its validation errors, since those fields carry no tags. |
| Handlers.UnnumberBatch | article-services-go/models.go:7-15 | Clearing a decoded slice keeps malformed JSON malformed and keeps the number of posts; every post is left without id or timestamps, and each is valid exactly when the decoded one was. |
| Handlers.CreateBatch | article-services-go/handlers.go:85-109 | Malformed JSON gives 400. The first invalid post's errors give 400, and nothing is written. With all posts valid, a failed write, an empty slice or an explicit id that is already taken gives 500. Where the posts land is stated for two cases: explicit ids here, and batches whose ids are all zero in `Handlers.CreateBatchLayout`; for a batch mixing both, the keys the zero-id posts take are not stated. For posts with zero ids, on a table whose ids are below its counter, the answer is 201 exactly when all are valid, there is at least one, and the write succeeds. On every 201 the old rows stay as they were, the table grows by the number of posts, each explicit id is stored with the client's fields and GORM's filled timestamps, and the message counts the posts. Any other answer leaves the table unchanged. |
| Handlers.CreateBatchLayout | article-services-go/handlers.go:100-107 | After a 201 for a batch of posts with zero ids, on a table whose ids are below its counter, the counter moves by the number of posts and a key is new exactly when it lies between the old counter and the new one. Key `nextId + i` holds post i, numbered with that key, keeping the timestamps it brought and with `now` for the zero ones. |
| Handlers.CreateSingle | article-services-go/handlers.go:111-128 | Malformed JSON gives 400, an invalid post gives 400 with its rendered errors, and a failed write or an explicit id already taken gives 500. On a well-formed table the answer is 201 exactly when the post is valid, the write succeeds and its id is zero or free. Then exactly one row is added, under the post's own id or else the next id, holding the post with its zero timestamps set to `now`; every other row stays, and a zero id advances the counter by one. Any other answer leaves the table unchanged. |
| Handlers.FirstInvalid | article-services-go/handlers.go:93-98 | The validation loop stops at the first invalid post: every earlier post is valid, and it finds none exactly when all are valid. |
| Handlers.FirstInvalidIsFirst | article-services-go/handlers.go:93-98 | The first invalid position is unique, and the loop reports that one. |
| Handlers.ListPosts | article-services-go/handlers.go:140-153 | Shared with the by-status listing (lines 166-179). A failed count gives its 500 message before the page is fetched, and a failed find gives the find message. The answer is 200 exactly when both queries succeed; then the data is the requested page of the selected rows in id order, the total is the number of selected rows, and every listed row is selected. |
| Handlers.GetPosts | article-services-go/handlers.go:132-154 | The answer is 200 exactly when count and find succeed, and 500 otherwise. The total is the number of stored rows and the data is the requested page of all rows in id order. |
| Handlers.GetPostsByStatus | article-services-go/handlers.go:157-180 | The answer is 200 exactly when count and find succeed. Then the data is the requested page of the rows with that status, in id order, the total is the number of such rows, and every listed row has the status. |
| Handlers.GetPost | article-services-go/handlers.go:184-198 | The answer is 404 "Artikel tidak ditemukan" exactly when the lookup succeeds and the id is absent, 500 "Gagal mengambil artikel" exactly when the lookup fails, and otherwise 200 with the stored post. |
| Handlers.FetchAsWritten | article-services-go/handlers.go:205-209 | As written, the existence check stops only on not-found; after any other lookup error the handler goes on with the zero `Post`. |
| Handlers.Fetch | article-services-go/handlers.go:188-195 | The corrected existence check answers 404 on not-found and 500 "Gagal mengambil artikel" on any other lookup error, as `GetPost` does. |
| Handlers.UpdatePost | article-services-go/handlers.go:201-233 | A missing id gives 404 whatever the body. Malformed JSON gives 400, an invalid body gives 400 with its rendered errors, and a failed save of a valid body gives 500 "Gagal memperbarui artikel"; none of them changes the table. The answer is 200 exactly when the row exists, the body is valid and the save succeeds. Then only that row changes: its title, content, category and status are the body's, its id and creation time stay, and its update time becomes `now`. |
| Handlers.UpdatePostAsWritten | article-services-go/handlers.go:201-233 | The handler as written agrees with `UpdatePost` whenever the lookup itself does not fail. |
| Handlers.UpdatePostStatus | article-services-go/handlers.go:236-265 | A missing id gives 404 whatever the body. Malformed JSON gives 400, a status outside the enum gives 400 with its rendered error, and a failed save of a valid status gives 500 "Gagal memperbarui status artikel"; the table is unchanged in all three cases. The answer is 200 exactly when the row exists, the status is valid and the save succeeds. Then the row differs from before only in status and update time, and every other row stays. |
| Handlers.UpdatePostStatusAsWritten | article-services-go/handlers.go:236-265 | The handler as written agrees with `UpdatePostStatus` whenever the lookup itself does not fail. |
| Handlers.DeletePost | article-services-go/handlers.go:268-284 | A missing id gives 404 "Artikel tidak ditemukan". Any other lookup error gives 500 "Gagal menghapus artikel", because the zero `Post` has no key. On a well-formed table a failed delete of a stored row gives the same 500, and the answer is 200 exactly when the row exists and the delete succeeds; then exactly that id is removed. Every other response leaves the table unchanged. |
| Storage.First | article-services-go/handlers.go:189 | `DB.First` fails exactly when the lookup fails. On a well-formed table a found post is a stored row with the requested id, and not-found means no stored row has that id. |
| Storage.IdsBetween | article-services-go/handlers.go:145 | The listed ids are stored, selected, strictly increasing and complete within their range. |
| Storage.Page | article-services-go/handlers.go:145 | A page is the slice of at most `limit` rows starting at `offset`, and it is empty past the end. |
| Storage.CreateMany | article-services-go/handlers.go:100 | Inserting a slice fails when the write fails or the slice is empty. On success the old rows stay as they were, the table grows by exactly the number of posts, and every explicit id was free before and holds its post afterwards. |
| Storage.InsertAllKeeps | article-services-go/handlers.go:100 | A successful batch insert keeps every old row and the counter's lower bound, adds one row per post, and stores each explicit id, free before, with its post. |
| Storage.InsertAllFresh | article-services-go/handlers.go:100 | A batch of posts with zero ids always inserts into a table whose ids are below its counter; the counter moves by the batch size and the new keys are exactly `nextId` up to `nextId + n`. |
| Storage.InsertAllFreshAt | article-services-go/handlers.go:100 | In such a batch, key `nextId + i` holds post i, numbered with that key, with its own timestamps kept and its zero ones set to `now`. |
| Storage.InsertAllAccepts | article-services-go/handlers.go:100 | The table never refuses a batch that leaves every id to it. |
| Storage.Insert | article-services-go/handlers.go:123 | One GORM insert refuses an explicit id that is taken. Otherwise it adds exactly the inserted id, which was free and is then below the counter, stores the post there with its zero timestamps filled, and keeps every other row. |
| Storage.InsertWf | article-services-go/handlers.go:123 | On a well-formed table the insert succeeds exactly when the id is zero or free, a zero id advances the counter by one, and a post whose filled dates are in order and not ahead of the clock keeps the table well formed. |
| Storage.CreateOne | article-services-go/handlers.go:123 | `DB.Create(&post)` fails on a write error and refuses a taken explicit id. On success it adds exactly the inserted id, which was free, with the filled post, and keeps every other row. |
| Storage.CreateOneWf | article-services-go/handlers.go:123 | On a well-formed table the create succeeds exactly when the write works and the id is zero or free, and a zero id advances the counter by one. |
| Storage.Save | article-services-go/handlers.go:227 | `DB.Save` overwrites a stored row with the post, its update time set to `now`, and touches no other row or the counter; with a creation time not ahead of the clock it keeps the table well formed. On a well-formed table a post with a zero id is inserted under the next id with its zero timestamps filled, and the old rows stay. A post with a non-zero id that is not stored is inserted under that id. On a well-formed table, for a zero or stored id, it succeeds exactly when the write works. |
| Storage.Delete | article-services-go/handlers.go:278 | `DB.Delete` succeeds exactly when the write works and the post has a primary key. Then it removes exactly that id, keeps every other row and the counter, and shrinks the table by one when the id was stored; a well-formed table stays well formed. |
| Storage.RowsCount | article-services-go/handlers.go:140-145 | The number of listable rows equals what `Count` reports. |
| Storage.RowsContents | article-services-go/handlers.go:145 | A stored row is listable exactly when the filter selects it. Every listed row is stored under its id, and rows come in id order. |
| Storage.IdsBetweenCount | article-services-go/handlers.go:140-145 | The id walk finds as many ids as the set of selected ids holds. |
| Storage.PagesAdjoin | article-services-go/handlers.go:145 | Two consecutive pages of size `limit` are the page of size `2*limit`: pages do not overlap and leave no gap. |
| HandlerProperties.CreatePreservesInvariant | article-services-go/handlers.go:72-129 | The corrected create keeps the table invariant on every input: only validated posts are inserted, under fresh ids, dated `now`. |
| HandlerProperties.CreateUsesFreshIds | article-services-go/handlers.go:72-129 | After a corrected create answers 201 the old rows are unchanged, and every new row sits at or above the old counter under its own id, with both timestamps `now`. |
| HandlerProperties.BatchUsesFreshIds | article-services-go/handlers.go:100 | A 201 batch of posts without id or timestamps adds only rows at or above the old counter, each under its own key and dated `now`. |
| HandlerProperties.InsertPreservesInvariant | article-services-go/handlers.go:123 | Inserting a valid post whose filled dates are sane keeps the table invariant. |
| HandlerProperties.InsertAllPreservesInvariant | article-services-go/handlers.go:100 | Inserting a slice of valid posts with sane dates keeps the table invariant. |
| HandlerProperties.BatchPreservesInvariant | article-services-go/handlers.go:85-109 | The batch branch keeps the table invariant when every decoded post's own timestamps, once GORM fills the zero ones, are in order and not ahead of the clock. |
| HandlerProperties.SinglePreservesInvariant | article-services-go/handlers.go:111-128 | The single branch keeps the table invariant under the same condition on the decoded post. |
| HandlerProperties.UpdatePreservesInvariant | article-services-go/handlers.go:201-233 | The corrected update keeps the table invariant. |
| HandlerProperties.UpdateAsWrittenPreservesInvariant | article-services-go/handlers.go:201-233 | The update as written also keeps the table invariant: after a failed lookup it inserts the body's four valid fields under a fresh id, dated `now`. |
| HandlerProperties.PatchPreservesInvariant | article-services-go/handlers.go:236-265 | The corrected patch keeps the table invariant: an out-of-enum status never reaches the table. |
| HandlerProperties.DeletePreservesInvariant | article-services-go/handlers.go:268-284 | Delete keeps the table invariant and never lowers the id counter, so the table itself never numbers a new row with a deleted id. The create as written still brings a deleted id back when the client sends it (`HandlerProperties.CreateAsWrittenReusesDeletedId`). |
| HandlerProperties.MissingIdIgnoresBody | article-services-go/handlers.go:206-209 | For a missing id, update, patch and delete (as written and corrected; the same check sits at lines 241-244 and 273-276) answer 404 and change nothing, whatever the body. |
| HandlerProperties.CreateIgnoresSurroundingSpace | article-services-go/handlers.go:79 | White space around the create body does not change the outcome, as written and corrected. |
| HandlerProperties.CreateDispatch | article-services-go/handlers.go:79-91 | As written, a body whose first non-space byte is `[`, after any leading white space, goes to the batch branch with the trimmed bytes; the single-post decoder is never asked. |
| HandlerProperties.BatchMessageNamesCount | article-services-go/handlers.go:105-107 | The batch success message determines the number of posts created. |
| HandlerProperties.ListTotalIgnoresPaging | article-services-go/handlers.go:140-153 | The listing total does not depend on limit and offset, and it equals the number of listable rows. |
| HandlerProperties.ListPagesAdjoin | article-services-go/handlers.go:145-153 | Two consecutive listing pages are the double-size page from the same offset. |
| HandlerProperties.ListedRowsAreStored | article-services-go/handlers.go:145-153 | On a well-formed table a 200 listing never holds more rows than the total it reports, every row on it is stored under its own id, and its rows come in increasing id order. |
| HandlerProperties.CreateThenGet | article-services-go/handlers.go:118-128 | A valid post with a zero or free id, created alone, is answered 201 and read back under its inserted id, holding the post with its zero timestamps set to the creation time. |
| HandlerProperties.CreateAsWrittenTrustsClientDates | article-services-go/handlers.go:112-123 | As written, a valid single post sent with a creation time after `now` and no update time is answered 201 and leaves a row updated before it was created, so the table is no longer well formed; the corrected create stores the same post numbered and dated `now`. |
| HandlerProperties.BatchAsWrittenTrustsClientDates | article-services-go/handlers.go:87-100 | As written, a valid batch of posts with zero ids in which one post carries a creation time after `now` and no update time is answered 201 and leaves a table that is no longer well formed. |
| HandlerProperties.CreateAsWrittenReusesDeletedId | article-services-go/handlers.go:123 | As written, after deleting row k a create whose body carries `"id": k` is answered 201 and brings row k back, although k is below the counter. |
| HandlerProperties.UpdateAsWrittenMisdirected | article-services-go/handlers.go:205-232 | As written, after a failed lookup the update answers 200 "Artikel berhasil diperbarui". The addressed row is untouched, and a new row under the next id holds the body's title, content, category and status, dated `now`. The corrected handler answers 500. |
| HandlerProperties.PatchAsWrittenStoresInvalidRow | article-services-go/handlers.go:240-264 | As written, after a failed lookup the patch answers 200 and stores a row with empty title, content and category, which breaks the invariant. The corrected handler answers 500. |

## Left out

- main.go is not part of this model: connection setup, AutoMigrate, routing and CORS. Its route patterns `[0-9]+` make ids, limits and offsets natural numbers, so the discarded `strconv.Atoi` errors cannot occur; overflow of Go's `int` on huge digit strings is not modelled.
- JSON encoding and decoding are inputs: the decoders are parameters, and response writing (`respondJSON`, `respondError`) becomes the returned `Response`. The `details` argument of `respondError` is never passed by the handlers.
- The `err.Error()` fallback of `parseValidationError`: `validate.Struct` on a non-nil struct value only returns `ValidationErrors`, so the model takes the error list as its input.
- Storage.Page: `LIMIT 0` is modelled as "no limit"; its meaning depends on the GORM version. Negative limits and offsets cannot reach the handlers.
- Storage.Rows: rows are listed in id order, which this layer relies on but SQL does not promise without `ORDER BY`.
- Storage.Matches: the `status = ?` filter is exact string equality. MySQL 8's default collation (`utf8mb4_0900_ai_ci`) is case- and accent-insensitive, so it would also match case and accent variants; trailing spaces are ignored only under the older PAD SPACE collations.
- Bytes.TrimSpace: trims ASCII white space (tab, line feed, vertical tab, form feed, carriage return, space) only. Go also trims the multi-byte Unicode spaces and U+0085.
- Text.ToLower: lower-cases ASCII letters only; the field names it is applied to are ASCII.
- HandlerProperties.BatchPreservesInvariant and HandlerProperties.SinglePreservesInvariant assume the decoded posts' own dates are sane, because as written the create stores the dates the client sends; the corrected create needs no such assumption.
- Handlers.CreateBatch: for a batch that mixes explicit ids with zero ids, the contract says where the explicit-id posts go but not which keys the zero-id posts take, since those keys depend on where the explicit ids move the counter.
- Storage.InsertAll: a failing row in the middle of a batch fails the whole statement and leaves the table as it was, as one multi-row `INSERT` does; partial batch inserts are not modelled.
- Real time: `autoCreateTime`/`autoUpdateTime` are a logical clock `now` passed to each mutating handler.
- Storage.Insert: the counter moves only on a successful insert. InnoDB also uses up auto-increment values on an insert that fails or is rolled back, so after a failed create MySQL may skip ids that the model hands out next. Ids are fresh either way, but the statements that post i gets `nextId + i` are about the model's counter, not MySQL's.
- Transactions and concurrency between requests: a batch insert is one step, and requests run one at a time.
- The GORM/MySQL SQL layer itself, column sizes (`size:200`, `size:100`) and schema migration.

## Findings

| source | as written | input that shows it | evidently intended | confidence | as-written member | corrected member |
|---|---|---|---|---|---|---|
| article-services-go/handlers.go:205-209 | `UpdatePost` stops only when `DB.First` returns `gorm.ErrRecordNotFound`. After any other lookup error it goes on with the zero `Post`, and `DB.Save` with a zero primary key inserts a new row. | `PUT /article/5` with a valid body while the lookup fails (e.g. a dropped connection) and the save then succeeds: the answer is 200 "Artikel berhasil diperbarui", row 5 is unchanged, and a new row holds the text. | Answer 500 "Gagal mengambil artikel" on any other lookup error, as `GetPost` does (handlers.go:192-194). | medium; not executed | Handlers.UpdatePostAsWritten, HandlerProperties.UpdateAsWrittenMisdirected | Handlers.UpdatePost |
| article-services-go/handlers.go:240-244 | `UpdatePostStatus` has the same check. After a lookup error it saves the zero `Post` with only the status set, which inserts a row with empty title, content and category. | `PATCH /article/5/status` with `{"status":"draft"}` while the lookup fails and the save succeeds: the answer is 200, and a row that breaks every `required` tag is stored. | Answer 500 "Gagal mengambil artikel" on any other lookup error. | medium; not executed | Handlers.UpdatePostStatusAsWritten, HandlerProperties.PatchAsWrittenStoresInvalidRow | Handlers.UpdatePostStatus, HandlerProperties.PatchPreservesInvariant |
| article-services-go/handlers.go:112-123 | `CreatePost` decodes the body straight into `Post` and hands it to `DB.Create`. GORM keeps a non-zero `id`, `created_date` or `updated_date` the client sent and only fills the zero ones. The batch branch (lines 87-100) does the same for every post. | `POST /article` with a valid post carrying a `created_date` in the future and no `updated_date`: 201, and the row was updated before it was created. After `DELETE /article/3`, a post carrying `"id": 3`: 201, and id 3 is handed out again. A post carrying a stored id: 500 "Gagal menyimpan artikel". | The table assigns the id and both timestamps (`primaryKey`, `autoCreateTime` and `autoUpdateTime` in models.go:8-14); client values for these fields are ignored. | medium; not executed | Handlers.CreatePostAsWritten, HandlerProperties.CreateAsWrittenTrustsClientDates, HandlerProperties.BatchAsWrittenTrustsClientDates | Handlers.CreatePost, HandlerProperties.CreatePreservesInvariant |

`DeletePost` (handlers.go:272-281) has the same check. There the zero `Post` reaches `DB.Delete`, which GORM refuses without a primary key, so the answer is still 500 and the table is unchanged. It is modelled as written (`Handlers.DeletePost`).

For the update row, the invariant does not tell the two halves apart: the handler as written keeps it too (`HandlerProperties.UpdateAsWrittenPreservesInvariant`). What the correction changes is the answer after a failed lookup, which `Handlers.UpdatePost` pins to 500 "Gagal mengambil artikel" with the table unchanged.

The id half of the create finding is shown by `HandlerProperties.CreateAsWrittenReusesDeletedId`.

=== FILE: bytes.dfy ===
/**
 Raw request bodies and `bytes.TrimSpace`, restricted to the six ASCII
 white-space bytes.
 */
module Bytes {

  newtype byte = x: int | 0 <= x < 256

  /** Tab, line feed, vertical tab, form feed, carriage return and space. */
  predicate IsSpace(b: byte) {
    b == 9 || b == 10 || b == 11 || b == 12 || b == 13 || b == 32
  }

  predicate AllSpace(s: seq<byte>) {
    forall i :: 0 <= i < |s| ==> IsSpace(s[i])
  }

  /** How many white-space bytes `s` starts with. */
  function LeadingSpaces(s: seq<byte>): (n: nat)
    ensures n <= |s|
    ensures AllSpace(s[..n])
    ensures n < |s| ==> !IsSpace(s[n])
    decreases |s|
  {
    if |s| == 0 || !IsSpace(s[0]) then 0
    else
      var n := 1 + LeadingSpaces(s[1..]);
      assert s[..n] == [s[0]] + s[1..][..n - 1];
      n
  }

  /** Where the run of white-space bytes that `s` ends with begins. */
  function TrailingStart(s: seq<byte>): (n: nat)
    ensures n <= |s|
    ensures AllSpace(s[n..])
    ensures n > 0 ==> !IsSpace(s[n - 1])
    decreases |s|
  {
    if |s| == 0 || !IsSpace(s[|s| - 1]) then |s|
    else
      var n := TrailingStart(s[..|s| - 1]);
      assert s[n..] == s[..|s| - 1][n..] + [s[|s| - 1]];
      n
  }

  /** `bytes.TrimSpace`: the part of `s` between its leading and trailing white space. */
  function TrimSpace(s: seq<byte>): (r: seq<byte>)
    ensures |r| == 0 <==> AllSpace(s)
    ensures |r| > 0 ==> !IsSpace(r[0]) && !IsSpace(r[|r| - 1])
    ensures |r| > 0 ==> exists i :: 0 <= i <= |s| - |r| && r == s[i..i + |r|] && AllSpace(s[..i]) && AllSpace(s[i + |r|..])
  {
    var lo := LeadingSpaces(s);
    var t := s[lo..];
    var hi := TrailingStart(t);
    var r := t[..hi];
    if |r| == 0 then
      assert lo == |s|;
      assert s[..lo] == s;
      r
    else
      assert r == s[lo..lo + |r|];
      assert s[lo + |r|..] == t[hi..];
      assert !AllSpace(s) by { assert s[lo] == r[0]; }
      r
  }

  /** White space around a body does not change what trimming leaves. */
  lemma {:induction false} TrimSpacePadding(pre: seq<byte>, b: seq<byte>, post: seq<byte>)
    requires AllSpace(pre) && AllSpace(post)
    ensures TrimSpace(pre + b + post) == TrimSpace(b)
    decreases |pre|, |post|
  {
    if |pre| > 0 {
      var s := pre + b + post;
      assert s[0] == pre[0];
      assert s[1..] == pre[1..] + b + post;
      TrimSpacePadding(pre[1..], b, post);
      LeadingStep(s);
    } else if |post| > 0 {
      var s := b + post;
      assert pre + b + post == s;
      assert s[|s| - 1] == post[|post| - 1];
      assert s[..|s| - 1] == [] + b + post[..|post| - 1];
      TrimSpacePadding([], b, post[..|post| - 1]);
      TrailingStep(s);
    } else {
      assert pre + b + post == b;
    }
  }

  /** Trimming ignores one leading white-space byte. */
  lemma LeadingStep(s: seq<byte>)
    requires |s| > 0 && IsSpace(s[0])
    ensures TrimSpace(s) == TrimSpace(s[1..])
  {
    assert LeadingSpaces(s) == 1 + LeadingSpaces(s[1..]);
    assert s[LeadingSpaces(s)..] == s[1..][LeadingSpaces(s[1..])..];
  }

  /** Trimming ignores one trailing white-space byte. */
  lemma TrailingStep(s: seq<byte>)
    requires |s| > 0 && IsSpace(s[|s| - 1])
    ensures TrimSpace(s) == TrimSpace(s[..|s| - 1])
  {
    var lo := LeadingSpaces(s);
    if lo == |s| {
      AllSpacePrefix(s, |s| - 1);
    } else {
      LeadingPrefix(s, |s| - 1);
      var t := s[lo..];
      assert t[|t| - 1] == s[|s| - 1];
      TrailingDrop(t);
      assert s[..|s| - 1][lo..] == t[..|t| - 1];
    }
  }

  lemma AllSpacePrefix(s: seq<byte>, k: nat)
    requires AllSpace(s) && k <= |s|
    ensures AllSpace(s[..k])
  {
  }

  /** Dropping a trailing space leaves the part before the trailing run as it was. */
  lemma TrailingDrop(t: seq<byte>)
    requires |t| > 0 && IsSpace(t[|t| - 1])
    ensures t[..TrailingStart(t)] == t[..|t| - 1][..TrailingStart(t[..|t| - 1])]
  {
    var n := TrailingStart(t[..|t| - 1]);
    assert TrailingStart(t) == n;
  }

  /** Cutting bytes off the end after the first non-space byte keeps the leading run. */
  lemma {:induction false} LeadingPrefix(s: seq<byte>, k: nat)
    requires LeadingSpaces(s) < k <= |s|
    ensures LeadingSpaces(s[..k]) == LeadingSpaces(s)
    decreases |s|
  {
    if |s| > 0 && IsSpace(s[0]) {
      assert s[..k][1..] == s[1..][..k - 1];
      LeadingPrefix(s[1..], k - 1);
    }
  }

  /** A body that starts with a non-space byte keeps that byte first when trimmed. */
  lemma TrimSpaceKeepsFirst(s: seq<byte>)
    requires |s| > 0 && !IsSpace(s[0])
    ensures |TrimSpace(s)| > 0 && TrimSpace(s)[0] == s[0]
  {
    assert LeadingSpaces(s) == 0;
    assert s[0..] == s;
  }

  /** Trimming twice is trimming once. */
  lemma TrimSpaceIdempotent(s: seq<byte>)
    ensures TrimSpace(TrimSpace(s)) == TrimSpace(s)
  {
    var r := TrimSpace(s);
    if |r| > 0 {
      assert LeadingSpaces(r) == 0;
      assert r[0..] == r;
      assert TrailingStart(r) == |r|;
      assert r[..|r|] == r;
    }
  }
}

=== FILE: decimal.dfy ===
/**
 Decimal formatting of natural numbers as `fmt.Sprintf("%d", n)` writes them,
 used for the batch-create message and for the `min` rule's parameter.
 */
module Decimal {

  predicate IsDigit(c: char) {
    '0' <= c <= '9'
  }

  predicate AllDigits(s: string) {
    forall i :: 0 <= i < |s| ==> IsDigit(s[i])
  }

  function DigitChar(d: nat): (c: char)
    requires d < 10
    ensures IsDigit(c)
    ensures c as int - '0' as int == d
  {
    ('0' as int + d) as char
  }

  /** The shortest decimal spelling of `n`: digits only, no leading zero. */
  function ToDecimal(n: nat): (r: string)
    ensures |r| >= 1
    ensures AllDigits(r)
    ensures r[0] == '0' <==> n == 0
    ensures n == 0 ==> r == "0"
    decreases n
  {
    if n < 10 then [DigitChar(n)] else ToDecimal(n / 10) + [DigitChar(n % 10)]
  }

  /** The value of a string of decimal digits. */
  function ParseDecimal(s: string): nat
    requires AllDigits(s)
    decreases |s|
  {
    if |s| == 0 then 0
    else ParseDecimal(s[..|s| - 1]) * 10 + (s[|s| - 1] as int - '0' as int)
  }

  /** Reading the decimal spelling back gives the number: `%d` loses nothing. */
  lemma {:induction false} ParseToDecimal(n: nat)
    ensures ParseDecimal(ToDecimal(n)) == n
    decreases n
  {
    var r := ToDecimal(n);
    if n < 10 {
      assert r[..0] == "";
    } else {
      ParseToDecimal(n / 10);
      assert r[..|r| - 1] == ToDecimal(n / 10);
    }
  }

  /** Distinct numbers have distinct spellings. */
  lemma ToDecimalInjective(m: nat, n: nat)
    requires ToDecimal(m) == ToDecimal(n)
    ensures m == n
  {
    ParseToDecimal(m);
    ParseToDecimal(n);
  }
}

=== FILE: handler_properties.dfy ===
/**
 Properties that relate several handler calls, or a handler call to the
 store invariant: what every request keeps true of the table, what a
 missing id or surrounding white space cannot change, and how listing
 totals and pages behave. The last parts exhibit what the create handler
 does, as written, with an id or timestamps sent in the body, and what the
 update and patch handlers do, as written, when the existence lookup fails
 for a reason other than a missing row.
 */
module HandlerProperties {
  import opened Wrappers
  import opened Bytes
  import opened Models
  import opened Storage
  import opened Handlers
  import Decimal

  /** What the table satisfies between requests, given the clock reading `now`. */
  predicate Inv(s: Store, now: Time) {
    Wf(s) && AllValid(s) && DatedBy(s, now)
  }

  // ---------------------------------------------------------------- invariant preservation

  /** Inserting one valid post whose dates come out in order and not after `now` keeps the invariant. */
  lemma InsertPreservesInvariant(s: Store, p: Post, now: Time)
    requires Inv(s, now) && Valid(p) && SaneDates(p, now)
    ensures Insert(s, p, now).Some? ==> Inv(Insert(s, p, now).value, now)
  {
    InsertWf(s, p, now);
    if Insert(s, p, now).Some? {
      assert Valid(Filled(p, InsertedId(s, p), now));
    }
  }

  predicate AllSaneDates(ps: seq<Post>, now: Time) {
    forall i :: 0 <= i < |ps| ==> SaneDates(ps[i], now)
  }

  /** Inserting a batch of valid posts with sane dates keeps the invariant, one row at a time. */
  lemma {:induction false} InsertAllPreservesInvariant(s: Store, ps: seq<Post>, now: Time)
    requires Inv(s, now) && AllPostsValid(ps) && AllSaneDates(ps, now)
    ensures InsertAll(s, ps, now).Some? ==> Inv(InsertAll(s, ps, now).value, now)
    decreases |ps|
  {
    if |ps| > 0 && Insert(s, ps[0], now).Some? {
      InsertPreservesInvariant(s, ps[0], now);
      InsertAllStep(s, ps, now);
      var rest := ps[1..];
      assert forall i :: 0 <= i < |rest| ==> rest[i] == ps[i + 1];
      InsertAllPreservesInvariant(Insert(s, ps[0], now).value, rest, now);
    }
  }

  /** The batch branch keeps the invariant when the posts' own dates are sane. */
  lemma BatchPreservesInvariant(s: Store, decoded: Option<seq<Post>>, now: Time, faults: Faults)
    requires Inv(s, now) && (decoded.Some? ==> AllSaneDates(decoded.value, now))
    ensures Inv(CreateBatch(s, decoded, now, faults).store, now)
  {
    if CreateBatch(s, decoded, now, faults).response.code == StatusCreated {
      InsertAllPreservesInvariant(s, decoded.value, now);
    }
  }

  /** The single branch keeps the invariant when the post's own dates are sane. */
  lemma SinglePreservesInvariant(s: Store, decoded: Option<Post>, now: Time, faults: Faults)
    requires Inv(s, now) && (decoded.Some? ==> SaneDates(decoded.value, now))
    ensures Inv(CreateSingle(s, decoded, now, faults).store, now)
  {
    if CreateSingle(s, decoded, now, faults).response.code == StatusCreated {
      InsertPreservesInvariant(s, decoded.value, now);
    }
  }

  /** The corrected create keeps every row well-formed and valid: only validated posts reach the table, dated `now`. */
  lemma CreatePreservesInvariant(s: Store, body: RawBody, json: Json, now: Time, faults: Faults)
    requires Inv(s, now)
    ensures Inv(CreatePost(s, body, json, now, faults).store, now)
  {
    if body.Payload? && !AllSpace(body.bytes) {
      var b := TrimSpace(body.bytes);
      if b[0] == OpenBracket {
        var d := UnnumberBatch(json.batch(b));
        assert d.Some? ==> forall i :: 0 <= i < |d.value| ==> Unnumbered(d.value[i]) && SaneDates(d.value[i], now);
        BatchPreservesInvariant(s, d, now, faults);
      } else {
        SinglePreservesInvariant(s, UnnumberSingle(json.single(b)), now, faults);
      }
    }
  }

  /** A batch of posts without id or timestamps, answered 201, adds only rows from the counter on, numbered with their key and dated `now`. */
  lemma BatchUsesFreshIds(s: Store, d: Option<seq<Post>>, now: Time, faults: Faults)
    requires Below(s) && d.Some? && AllUnnumbered(d.value)
    ensures var o := CreateBatch(s, d, now, faults);
      o.response.code == StatusCreated ==>
        forall k | k in o.store.rows && k !in s.rows ::
          s.nextId <= k && o.store.rows[k].id == k &&
          o.store.rows[k].createdDate == now && o.store.rows[k].updatedDate == now
  {
    var o := CreateBatch(s, d, now, faults);
    assert ZeroIds(d.value);
    if o.response.code == StatusCreated {
      forall k | k in o.store.rows && k !in s.rows
        ensures s.nextId <= k && o.store.rows[k].id == k &&
                o.store.rows[k].createdDate == now && o.store.rows[k].updatedDate == now
      {
        CreateBatchLayout(s, d, now, faults, k);
        assert Unnumbered(d.value[k - s.nextId]);
      }
    }
  }

  /**
   The corrected create keeps every earlier row, and every row it adds lies at
   or above the counter, carries its own key as id and is dated `now`.
   */
  lemma CreateUsesFreshIds(s: Store, body: RawBody, json: Json, now: Time, faults: Faults)
    requires Wf(s)
    ensures var o := CreatePost(s, body, json, now, faults);
      o.response.code == StatusCreated ==>
        && (forall k | k in s.rows :: k in o.store.rows && o.store.rows[k] == s.rows[k])
        && (forall k | k in o.store.rows && k !in s.rows ::
              s.nextId <= k && o.store.rows[k].id == k &&
              o.store.rows[k].createdDate == now && o.store.rows[k].updatedDate == now)
  {
    var o := CreatePost(s, body, json, now, faults);
    if o.response.code == StatusCreated {
      var b := TrimSpace(body.bytes);
      assert Below(s);
      if b[0] == OpenBracket {
        BatchUsesFreshIds(s, UnnumberBatch(json.batch(b)), now, faults);
      } else {
        var d := UnnumberSingle(json.single(b));
        assert o == CreateSingle(s, d, now, faults);
        assert InsertedId(s, d.value) == s.nextId;
      }
    }
  }

  /**
   The update as written keeps the invariant as well: after a failed lookup it
   saves the zero `Post` carrying the body's four validated fields, which goes
   in under a fresh id, dated `now`.
   */
  lemma UpdateAsWrittenPreservesInvariant(s: Store, id: nat, body: Option<Post>, now: Time, faults: Faults)
    requires Inv(s, now)
    ensures Inv(UpdatePostAsWritten(s, id, body, now, faults).store, now)
  {
    if !faults.lookupFails {
      UpdatePreservesInvariant(s, id, body, now, faults);
    }
  }

  /** A full update keeps the table well-formed and valid; the replaced row keeps its creation time. */
  lemma UpdatePreservesInvariant(s: Store, id: nat, body: Option<Post>, now: Time, faults: Faults)
    requires Inv(s, now)
    ensures Inv(UpdatePost(s, id, body, now, faults).store, now)
  {
    var o := UpdatePost(s, id, body, now, faults);
    if o.response.code == StatusOK {
      assert s.rows[id].createdDate <= s.rows[id].updatedDate <= now;
    }
  }

  /** A status patch keeps the table well-formed and valid: a status outside the enum never reaches it. */
  lemma PatchPreservesInvariant(s: Store, id: nat, body: Option<string>, now: Time, faults: Faults)
    requires Inv(s, now)
    ensures Inv(UpdatePostStatus(s, id, body, now, faults).store, now)
  {
    var o := UpdatePostStatus(s, id, body, now, faults);
    if o.response.code == StatusOK {
      assert s.rows[id].createdDate <= s.rows[id].updatedDate <= now;
    }
  }

  /**
   A delete keeps the table well-formed and valid and never lowers the
   counter, so the table itself never numbers a new row with a deleted id. The
   create as written still brings it back when the client sends it
   (`CreateAsWrittenReusesDeletedId`).
   */
  lemma DeletePreservesInvariant(s: Store, id: nat, now: Time, faults: Faults)
    requires Inv(s, now)
    ensures Inv(DeletePost(s, id, faults).store, now)
    ensures DeletePost(s, id, faults).store.nextId == s.nextId
  {
  }

  // ---------------------------------------------------------------- request-independence

  /** For a missing id the three mutating handlers answer 404 and change nothing, whatever the body says. */
  lemma MissingIdIgnoresBody(s: Store, id: nat, post: Option<Post>, status: Option<string>, now: Time, faults: Faults)
    requires !faults.lookupFails && id !in s.rows
    ensures UpdatePost(s, id, post, now, faults) == Reject(s, StatusNotFound, MsgNotFound)
    ensures UpdatePostStatus(s, id, status, now, faults) == Reject(s, StatusNotFound, MsgNotFound)
    ensures DeletePost(s, id, faults) == Reject(s, StatusNotFound, MsgNotFound)
    ensures UpdatePostAsWritten(s, id, post, now, faults) == Reject(s, StatusNotFound, MsgNotFound)
    ensures UpdatePostStatusAsWritten(s, id, status, now, faults) == Reject(s, StatusNotFound, MsgNotFound)
  {
  }

  /** White space around the create body changes nothing: the handler sees only the trimmed bytes. */
  lemma CreateIgnoresSurroundingSpace(s: Store, pre: seq<byte>, b: seq<byte>, post: seq<byte>, json: Json, now: Time, faults: Faults)
    requires AllSpace(pre) && AllSpace(post)
    ensures CreatePost(s, Payload(pre + b + post), json, now, faults) == CreatePost(s, Payload(b), json, now, faults)
    ensures CreatePostAsWritten(s, Payload(pre + b + post), json, now, faults) == CreatePostAsWritten(s, Payload(b), json, now, faults)
  {
    TrimSpacePadding(pre, b, post);
  }

  /** A body whose first non-space byte is `[` goes to the batch branch with the trimmed bytes: the single-post decoder is never asked. */
  lemma CreateDispatch(s: Store, pre: seq<byte>, rest: seq<byte>, json: Json, now: Time, faults: Faults)
    requires AllSpace(pre)
    ensures CreatePostAsWritten(s, Payload(pre + ([OpenBracket] + rest)), json, now, faults) ==
            CreateBatch(s, json.batch(TrimSpace([OpenBracket] + rest)), now, faults)
  {
    var b := [OpenBracket] + rest;
    assert pre + b + [] == pre + b;
    TrimSpacePadding(pre, b, []);
    TrimSpaceKeepsFirst(b);
  }

  /** The batch message tells the number of created posts: different counts give different messages. */
  lemma BatchMessageNamesCount(m: nat, n: nat)
    requires BatchCreatedMessage(m) == BatchCreatedMessage(n)
    ensures m == n
  {
    var a := Decimal.ToDecimal(m);
    var b := Decimal.ToDecimal(n);
    assert |a| == |b|;
    assert a == (a + MsgBatchCreatedTail)[..|a|];
    assert b == (b + MsgBatchCreatedTail)[..|b|];
    Decimal.ToDecimalInjective(m, n);
  }

  // ---------------------------------------------------------------- listing

  /** The listing total is the number of selected rows, whatever the limit and offset. */
  lemma ListTotalIgnoresPaging(s: Store, f: Filter, limit: nat, offset: nat, limit': nat, offset': nat, faults: Faults)
    requires Wf(s) && !faults.countFails && !faults.findFails
    ensures ListPosts(s, f, limit, offset, faults).body.total == ListPosts(s, f, limit', offset', faults).body.total
    ensures ListPosts(s, f, limit, offset, faults).body.total == |Rows(s, f)|
  {
    RowsCount(s, f);
  }

  /** Two consecutive pages of a listing are the double-size page from the same offset: disjoint, in order, no gap. */
  lemma ListPagesAdjoin(s: Store, f: Filter, limit: nat, offset: nat, faults: Faults)
    requires limit > 0 && !faults.countFails && !faults.findFails
    ensures ListPosts(s, f, limit, offset, faults).body.data + ListPosts(s, f, limit, offset + limit, faults).body.data
            == ListPosts(s, f, 2 * limit, offset, faults).body.data
  {
    PagesAdjoin(Rows(s, f), limit, offset);
  }

  /**
   On a well-formed table a listing page never holds more rows than the total
   it reports, every row on it is stored under its own id, and the rows come in
   id order.
   */
  lemma ListedRowsAreStored(s: Store, f: Filter, limit: nat, offset: nat, faults: Faults)
    requires Wf(s)
    ensures var r := ListPosts(s, f, limit, offset, faults);
      r.code == StatusOK ==>
        && |r.body.data| <= r.body.total
        && (forall i :: 0 <= i < |r.body.data| ==>
              r.body.data[i].id in s.rows && s.rows[r.body.data[i].id] == r.body.data[i])
        && (forall i, j :: 0 <= i < j < |r.body.data| ==> r.body.data[i].id < r.body.data[j].id)
  {
    RowsCount(s, f);
    RowsContents(s, f);
  }

  // ---------------------------------------------------------------- create, then read

  /** A valid post created alone can be read back under the id it was given, as `DB.Create` filled it. */
  lemma CreateThenGet(s: Store, p: Post, now: Time)
    requires Wf(s) && Valid(p) && (p.id == 0 || p.id !in s.rows)
    ensures CreateSingle(s, Some(p), now, NoFaults).response.code == StatusCreated
    ensures GetPost(CreateSingle(s, Some(p), now, NoFaults).store, InsertedId(s, p), NoFaults)
            == Response(StatusOK, PostBody(Filled(p, InsertedId(s, p), now)))
  {
  }

  // ---------------------------------------------------------------- client-supplied fields, as written

  /**
   As written, a create keeps a `created_date` sent in the body: a post sent
   with a creation time after `now` and no update time is stored as updated
   before it was created, so the table is no longer well formed. The
   corrected create dates the same post `now`.
   */
  lemma CreateAsWrittenTrustsClientDates(s: Store, bytes: seq<byte>, json: Json, p: Post, now: Time)
    requires Inv(s, now) && !AllSpace(bytes)
    requires TrimSpace(bytes)[0] != OpenBracket && json.single(TrimSpace(bytes)) == Some(p)
    requires Valid(p) && p.id == 0 && p.updatedDate == 0 && now < p.createdDate
    ensures CreatePostAsWritten(s, Payload(bytes), json, now, NoFaults).response.code == StatusCreated
    ensures !Wf(CreatePostAsWritten(s, Payload(bytes), json, now, NoFaults).store)
    ensures var t := CreatePost(s, Payload(bytes), json, now, NoFaults).store;
      s.nextId in t.rows && t.rows[s.nextId] == Stamped(p, s.nextId, now)
  {
    var t := CreatePostAsWritten(s, Payload(bytes), json, now, NoFaults).store;
    assert t.rows[s.nextId].createdDate > t.rows[s.nextId].updatedDate;
  }

  /**
   The batch branch as written keeps the dates of every post in the same way:
   one post of a valid batch sent with a creation time after `now` and no
   update time gives a 201 and a table that is no longer well formed.
   */
  lemma BatchAsWrittenTrustsClientDates(s: Store, ps: seq<Post>, i: nat, now: Time)
    requires Inv(s, now) && AllPostsValid(ps) && ZeroIds(ps)
    requires i < |ps| && ps[i].updatedDate == 0 && now < ps[i].createdDate
    ensures CreateBatch(s, Some(ps), now, NoFaults).response.code == StatusCreated
    ensures !Wf(CreateBatch(s, Some(ps), now, NoFaults).store)
  {
    var o := CreateBatch(s, Some(ps), now, NoFaults);
    var k := s.nextId + i;
    CreateBatchLayout(s, Some(ps), now, NoFaults, k);
    assert o.store.rows[k] == Filled(ps[i], k, now);
  }

  /**
   As written, a create keeps an `id` sent in the body, so a deleted id is
   handed out again: after row `k` is deleted, a post sent with id `k` is
   stored under `k`. The corrected create adds rows only from the counter
   on, which a delete never lowers.
   */
  lemma CreateAsWrittenReusesDeletedId(s: Store, k: nat, p: Post, now: Time)
    requires Inv(s, now) && k in s.rows && Valid(p) && p.id == k
    ensures var t := DeletePost(s, k, NoFaults).store;
      && k !in t.rows && k < t.nextId
      && CreateSingle(t, Some(p), now, NoFaults).response.code == StatusCreated
      && k in CreateSingle(t, Some(p), now, NoFaults).store.rows
  {
  }

  // ---------------------------------------------------------------- lookup errors, as written

  /** A lookup that fails for a reason other than not-found. */
  const LookupOnly: Faults := Faults(false, false, true, false)

  /**
   As written, an update whose lookup fails answers 200 "updated" although the
   addressed row is untouched: the zero `Post` it went on with has no id, so
   `Save` inserts the new text as a fresh row. The corrected handler answers 500.
   */
  lemma UpdateAsWrittenMisdirected(s: Store, id: nat, data: Post, now: Time)
    requires Wf(s) && Valid(data)
    ensures UpdatePostAsWritten(s, id, Some(data), now, LookupOnly).response == Response(StatusOK, MessageBody(MsgUpdated))
    ensures id in s.rows ==> UpdatePostAsWritten(s, id, Some(data), now, LookupOnly).store.rows[id] == s.rows[id]
    ensures UpdatePostAsWritten(s, id, Some(data), now, LookupOnly).store.rows.Keys == s.rows.Keys + {s.nextId}
    ensures UpdatePostAsWritten(s, id, Some(data), now, LookupOnly).store.rows[s.nextId] ==
      Filled(ZeroPost.(title := data.title, content := data.content, category := data.category, status := data.status), s.nextId, now)
    ensures UpdatePost(s, id, Some(data), now, LookupOnly) == Reject(s, StatusInternalServerError, MsgGetFailed)
  {
    var replaced := ZeroPost.(title := data.title, content := data.content, category := data.category, status := data.status);
    assert Save(s, replaced, now, LookupOnly) == Insert(s, replaced, now);
  }

  /**
   As written, a status patch whose lookup fails stores a row with an empty
   title, content and category, breaking the table invariant that every row is
   valid. The corrected handler keeps it (`PatchPreservesInvariant`).
   */
  lemma PatchAsWrittenStoresInvalidRow(s: Store, id: nat, status: string, now: Time)
    requires Inv(s, now) && ValidStatus(status)
    ensures UpdatePostStatusAsWritten(s, id, Some(status), now, LookupOnly).response == Response(StatusOK, MessageBody(MsgStatusUpdated))
    ensures !AllValid(UpdatePostStatusAsWritten(s, id, Some(status), now, LookupOnly).store)
    ensures UpdatePostStatus(s, id, Some(status), now, LookupOnly) == Reject(s, StatusInternalServerError, MsgGetFailed)
  {
    var o := UpdatePostStatusAsWritten(s, id, Some(status), now, LookupOnly);
    assert Save(s, ZeroPost.(status := status), now, LookupOnly) == Insert(s, ZeroPost.(status := status), now);
    assert o.store.rows[s.nextId].title == "";
  }
}

=== FILE: handlers.dfy ===
/**
 The seven HTTP handlers as transitions over the abstract store. Each takes
 the store, the request's path parameters and body, the clock reading and
 the storage faults of this request, and returns the response with the
 store it leaves behind. JSON decoding is an input: the create handler is
 given the two decoders it may call on the trimmed body, the update and
 patch handlers the already-decoded body (`None` for malformed JSON).
 */
module Handlers {
  import opened Wrappers
  import opened Bytes
  import opened Models
  import opened Storage
  import ValidationErrors
  import Decimal

  const StatusOK: nat := 200
  const StatusCreated: nat := 201
  const StatusBadRequest: nat := 400
  const StatusNotFound: nat := 404
  const StatusInternalServerError: nat := 500

  /** `respondError` bodies, the `{"message": ...}` bodies of `respondJSON`, one post, or a page with its total. */
  datatype Body =
    | ErrorBody(message: string)
    | MessageBody(message: string)
    | PostBody(post: Post)
    | PageBody(data: seq<Post>, total: nat)

  datatype Response = Response(code: nat, body: Body)

  datatype Outcome = Outcome(response: Response, store: Store)

  /** An error response; the store is left as it was. */
  function Reject(s: Store, code: nat, message: string): Outcome {
    Outcome(Response(code, ErrorBody(message)), s)
  }

  function Done(s: Store, code: nat, message: string): Outcome {
    Outcome(Response(code, MessageBody(message)), s)
  }

  const MsgUnreadableBody := "Tidak bisa membaca body request"
  const MsgEmptyBody := "Body request kosong"
  const MsgBadJson := "Format JSON tidak valid"
  const MsgSaveFailed := "Gagal menyimpan artikel"
  const MsgCreated := "Artikel berhasil dibuat"
  const MsgBatchCreatedTail := " artikel berhasil dibuat"
  const MsgNotFound := "Artikel tidak ditemukan"
  const MsgGetFailed := "Gagal mengambil artikel"
  const MsgUpdateFailed := "Gagal memperbarui artikel"
  const MsgUpdated := "Artikel berhasil diperbarui"
  const MsgStatusUpdateFailed := "Gagal memperbarui status artikel"
  const MsgStatusUpdated := "Status artikel berhasil diperbarui"
  const MsgDeleteFailed := "Gagal menghapus artikel"
  const MsgDeleted := "Artikel berhasil dihapus"

  /** The `"%d artikel berhasil dibuat"` message of a batch create. */
  function BatchCreatedMessage(n: nat): string {
    Decimal.ToDecimal(n) + MsgBatchCreatedTail
  }

  // ---------------------------------------------------------------- create

  /** The request body as `io.ReadAll` returns it. */
  datatype RawBody = ReadFailed | Payload(bytes: seq<byte>)

  /** The two `json.Unmarshal` targets of the create handler: a slice of posts, or one post. */
  datatype Json = Json(batch: seq<byte> -> Option<seq<Post>>, single: seq<byte> -> Option<Post>)

  /** The byte `[`. */
  const OpenBracket: byte := 91

  predicate AllPostsValid(ps: seq<Post>) {
    forall i :: 0 <= i < |ps| ==> Valid(ps[i])
  }

  /** The position the validation loop stops at: the first post `validate.Struct` rejects. */
  function FirstInvalid(ps: seq<Post>): (r: Option<nat>)
    ensures r.None? <==> AllPostsValid(ps)
    ensures r.Some? ==> r.value < |ps| && !Valid(ps[r.value])
    ensures r.Some? ==> forall j :: 0 <= j < r.value ==> Valid(ps[j])
    decreases |ps|
  {
    if |ps| == 0 then None
    else if Violations(ps[0]) != [] then Some(0)
    else
      assert forall j :: 1 <= j < |ps| ==> ps[j] == ps[1..][j - 1];
      match FirstInvalid(ps[1..])
      case None => None
      case Some(i) => Some(i + 1)
  }

  /** Post `i` is the first one that fails validation. */
  predicate IsFirstInvalid(ps: seq<Post>, i: nat) {
    i < |ps| && !Valid(ps[i]) && forall j :: 0 <= j < i ==> Valid(ps[j])
  }

  /** Only one position can be the first invalid one, and `FirstInvalid` finds it. */
  lemma FirstInvalidIsFirst(ps: seq<Post>)
    ensures forall i: nat :: IsFirstInvalid(ps, i) ==> FirstInvalid(ps) == Some(i)
  {
  }

  /** `CreatePost` as written: trim the body, refuse it when empty, then dispatch on its first byte. */
  function CreatePostAsWritten(s: Store, body: RawBody, json: Json, now: Time, faults: Faults): (o: Outcome)
    ensures o.response.code in {StatusCreated, StatusBadRequest, StatusInternalServerError}
    ensures o.response.code != StatusCreated ==> o.store == s
    ensures body.ReadFailed? ==> o == Reject(s, StatusBadRequest, MsgUnreadableBody)
    ensures body.Payload? && AllSpace(body.bytes) ==> o == Reject(s, StatusBadRequest, MsgEmptyBody)
    ensures body.Payload? && !AllSpace(body.bytes) ==>
      var b := TrimSpace(body.bytes);
      o == if b[0] == OpenBracket then CreateBatch(s, json.batch(b), now, faults)
           else CreateSingle(s, json.single(b), now, faults)
  {
    match body
    case ReadFailed => Reject(s, StatusBadRequest, MsgUnreadableBody)
    case Payload(bytes) =>
      var b := TrimSpace(bytes);
      if |b| == 0 then Reject(s, StatusBadRequest, MsgEmptyBody)
      else if b[0] == OpenBracket then CreateBatch(s, json.batch(b), now, faults)
      else CreateSingle(s, json.single(b), now, faults)
  }

  /** The post with any client-supplied id and timestamps dropped, so that the table assigns them. */
  function Unnumber(p: Post): (q: Post)
    ensures Unnumbered(q)
    ensures Violations(q) == Violations(p)
  {
    p.(id := 0, createdDate := 0, updatedDate := 0)
  }

  function UnnumberBatch(decoded: Option<seq<Post>>): (r: Option<seq<Post>>)
    ensures r.Some? <==> decoded.Some?
    ensures r.Some? ==> |r.value| == |decoded.value| && AllUnnumbered(r.value)
    ensures r.Some? ==> (AllPostsValid(r.value) <==> AllPostsValid(decoded.value))
  {
    match decoded
    case None => None
    case Some(ps) =>
      var qs := seq(|ps|, i requires 0 <= i < |ps| => Unnumber(ps[i]));
      assert forall i :: 0 <= i < |ps| ==> (Valid(qs[i]) <==> Valid(ps[i]));
      Some(qs)
  }

  function UnnumberSingle(decoded: Option<Post>): (r: Option<Post>)
    ensures r.Some? <==> decoded.Some?
    ensures r.Some? ==> Unnumbered(r.value) && (Valid(r.value) <==> Valid(decoded.value))
  {
    match decoded
    case None => None
    case Some(p) => Some(Unnumber(p))
  }

  /** The decoders with the `id`, `created_date` and `updated_date` members of the body ignored. */
  function ServerNumbered(json: Json): Json {
    Json(b => UnnumberBatch(json.batch(b)), b => UnnumberSingle(json.single(b)))
  }

  /** `CreatePost` corrected: the table alone numbers and dates new rows. */
  function CreatePost(s: Store, body: RawBody, json: Json, now: Time, faults: Faults): (o: Outcome)
    ensures o.response.code in {StatusCreated, StatusBadRequest, StatusInternalServerError}
    ensures o.response.code != StatusCreated ==> o.store == s
    ensures body.ReadFailed? ==> o == Reject(s, StatusBadRequest, MsgUnreadableBody)
    ensures body.Payload? && AllSpace(body.bytes) ==> o == Reject(s, StatusBadRequest, MsgEmptyBody)
    ensures body.Payload? && !AllSpace(body.bytes) ==>
      var b := TrimSpace(body.bytes);
      o == if b[0] == OpenBracket then CreateBatch(s, UnnumberBatch(json.batch(b)), now, faults)
           else CreateSingle(s, UnnumberSingle(json.single(b)), now, faults)
  {
    CreatePostAsWritten(s, body, ServerNumbered(json), now, faults)
  }

  /** The bulk branch: every post is checked before anything is written; the first invalid one is reported. */
  function CreateBatch(s: Store, decoded: Option<seq<Post>>, now: Time, faults: Faults): (o: Outcome)
    ensures decoded.None? ==> o == Reject(s, StatusBadRequest, MsgBadJson)
    ensures decoded.Some? ==> forall i: nat :: IsFirstInvalid(decoded.value, i) ==>
      o == Reject(s, StatusBadRequest, ValidationErrors.Render(Violations(decoded.value[i])))
    ensures decoded.Some? && AllPostsValid(decoded.value) && (faults.writeFails || |decoded.value| == 0) ==>
      o == Reject(s, StatusInternalServerError, MsgSaveFailed)
    ensures decoded.Some? && AllPostsValid(decoded.value) &&
            (exists i :: 0 <= i < |decoded.value| && decoded.value[i].id != 0 && decoded.value[i].id in s.rows) ==>
      o == Reject(s, StatusInternalServerError, MsgSaveFailed)
    ensures o.response.code == StatusCreated ==>
      decoded.Some? && AllPostsValid(decoded.value) && |decoded.value| > 0 && !faults.writeFails
    ensures Below(s) && decoded.Some? && ZeroIds(decoded.value) ==>
      (o.response.code == StatusCreated <==> AllPostsValid(decoded.value) && |decoded.value| > 0 && !faults.writeFails)
    ensures o.response.code == StatusCreated ==>
      && o.response.body == MessageBody(BatchCreatedMessage(|decoded.value|))
      && (forall k | k in s.rows :: k in o.store.rows && o.store.rows[k] == s.rows[k])
      && |o.store.rows| == |s.rows| + |decoded.value|
      && (forall i :: 0 <= i < |decoded.value| && decoded.value[i].id != 0 ==>
            decoded.value[i].id in o.store.rows &&
            o.store.rows[decoded.value[i].id] == Filled(decoded.value[i], decoded.value[i].id, now))
    ensures o.response.code != StatusCreated ==> o.store == s
  {
    match decoded
    case None => Reject(s, StatusBadRequest, MsgBadJson)
    case Some(ps) =>
      FirstInvalidIsFirst(ps);
      InsertAllAccepts(s, ps, now);
      match FirstInvalid(ps)
      case Some(i) => Reject(s, StatusBadRequest, ValidationErrors.Render(Violations(ps[i])))
      case None =>
        match CreateMany(s, ps, now, faults)
        case None => Reject(s, StatusInternalServerError, MsgSaveFailed)
        case Some(s') => Done(s', StatusCreated, BatchCreatedMessage(|ps|))
  }

  /**
   A batch that leaves every id to the table, answered 201, fills the ids from
   the counter on, in order: a key is new exactly when it lies in the batch's
   range, and `nextId + i` holds post i with the timestamps it brought and
   `now` for the zero ones.
   */
  lemma CreateBatchLayout(s: Store, decoded: Option<seq<Post>>, now: Time, faults: Faults, k: nat)
    requires Below(s) && decoded.Some? && ZeroIds(decoded.value)
    requires CreateBatch(s, decoded, now, faults).response.code == StatusCreated
    ensures CreateBatch(s, decoded, now, faults).store.nextId == s.nextId + |decoded.value|
    ensures k in CreateBatch(s, decoded, now, faults).store.rows <==> k in s.rows || s.nextId <= k < s.nextId + |decoded.value|
    ensures s.nextId <= k < s.nextId + |decoded.value| ==>
      CreateBatch(s, decoded, now, faults).store.rows[k] == Filled(decoded.value[k - s.nextId], k, now)
  {
    InsertAllFresh(s, decoded.value, now);
    if s.nextId <= k < s.nextId + |decoded.value| {
      InsertAllFreshAt(s, decoded.value, now, k);
    }
  }

  /** The single branch: one post, validated, then inserted under its own id or the next one. */
  function CreateSingle(s: Store, decoded: Option<Post>, now: Time, faults: Faults): (o: Outcome)
    ensures decoded.None? ==> o == Reject(s, StatusBadRequest, MsgBadJson)
    ensures decoded.Some? && !Valid(decoded.value) ==>
      o == Reject(s, StatusBadRequest, ValidationErrors.Render(Violations(decoded.value)))
    ensures decoded.Some? && Valid(decoded.value) && (faults.writeFails || (decoded.value.id != 0 && decoded.value.id in s.rows)) ==>
      o == Reject(s, StatusInternalServerError, MsgSaveFailed)
    ensures Wf(s) ==> (o.response.code == StatusCreated <==>
      decoded.Some? && Valid(decoded.value) && !faults.writeFails && (decoded.value.id == 0 || decoded.value.id !in s.rows))
    ensures o.response.code == StatusCreated ==>
      && decoded.Some? && Valid(decoded.value)
      && o.response.body == MessageBody(MsgCreated)
      && InsertedId(s, decoded.value) !in s.rows
      && o.store.rows.Keys == s.rows.Keys + {InsertedId(s, decoded.value)}
      && o.store.rows[InsertedId(s, decoded.value)] == Filled(decoded.value, InsertedId(s, decoded.value), now)
      && (forall k | k in s.rows :: o.store.rows[k] == s.rows[k])
    ensures o.response.code == StatusCreated && Wf(s) && decoded.value.id == 0 ==> o.store.nextId == s.nextId + 1
    ensures o.response.code != StatusCreated ==> o.store == s
  {
    match decoded
    case None => Reject(s, StatusBadRequest, MsgBadJson)
    case Some(p) =>
      CreateOneWf(s, p, now, faults);
      if Violations(p) != [] then Reject(s, StatusBadRequest, ValidationErrors.Render(Violations(p)))
      else
        match CreateOne(s, p, now, faults)
        case None => Reject(s, StatusInternalServerError, MsgSaveFailed)
        case Some(s') => Done(s', StatusCreated, MsgCreated)
  }

  // ---------------------------------------------------------------- listing

  function CountFailedMessage(f: Filter): string {
    if f.AllRows? then "Gagal menghitung artikel" else "Gagal menghitung artikel berdasarkan status"
  }

  function FindFailedMessage(f: Filter): string {
    if f.AllRows? then "Gagal mengambil data artikel" else "Gagal mengambil artikel berdasarkan status"
  }

  /**
   The shared body of `GetPosts` and `GetPostsByStatus`: count, then fetch one
   page. A 200 carries the requested page of the selected rows and their number.
   */
  function ListPosts(s: Store, f: Filter, limit: nat, offset: nat, faults: Faults): (r: Response)
    ensures r.code in {StatusOK, StatusInternalServerError}
    ensures r.code == StatusOK <==> !faults.countFails && !faults.findFails
    ensures faults.countFails ==> r == Response(StatusInternalServerError, ErrorBody(CountFailedMessage(f)))
    ensures !faults.countFails && faults.findFails ==>
      r == Response(StatusInternalServerError, ErrorBody(FindFailedMessage(f)))
    ensures r.code == StatusOK ==> r.body.PageBody? && r.body.data == Page(Rows(s, f), limit, offset)
    ensures r.code == StatusOK ==> r.body.total == Count(s, f)
    ensures r.code == StatusOK ==> forall i :: 0 <= i < |r.body.data| ==> Matches(r.body.data[i], f)
  {
    if faults.countFails then Response(StatusInternalServerError, ErrorBody(CountFailedMessage(f)))
    else if faults.findFails then Response(StatusInternalServerError, ErrorBody(FindFailedMessage(f)))
    else Response(StatusOK, PageBody(Page(Rows(s, f), limit, offset), Count(s, f)))
  }

  /** `GET /article/{limit}/{offset}`: a page of all rows, with the number of all rows. */
  function GetPosts(s: Store, limit: nat, offset: nat, faults: Faults): (r: Response)
    ensures r.code == StatusOK <==> !faults.countFails && !faults.findFails
    ensures r.code != StatusOK ==> r.code == StatusInternalServerError
    ensures r.code == StatusOK ==> r.body.PageBody? && r.body.total == |s.rows|
    ensures r.code == StatusOK ==> r.body.data == Page(Rows(s, AllRows), limit, offset)
  {
    assert MatchingIds(s, AllRows) == s.rows.Keys;
    ListPosts(s, AllRows, limit, offset, faults)
  }

  /** `GET /article/status/{status}/{limit}/{offset}`: the same over the rows with that status. */
  function GetPostsByStatus(s: Store, status: string, limit: nat, offset: nat, faults: Faults): (r: Response)
    ensures r.code == StatusOK <==> !faults.countFails && !faults.findFails
    ensures r.code != StatusOK ==> r.code == StatusInternalServerError
    ensures r.code == StatusOK ==>
      r.body.PageBody? && r.body.total == |set k | k in s.rows && s.rows[k].status == status|
    ensures r.code == StatusOK ==> r.body.data == Page(Rows(s, WithStatus(status)), limit, offset)
    ensures r.code == StatusOK ==> forall i :: 0 <= i < |r.body.data| ==> r.body.data[i].status == status
  {
    assert MatchingIds(s, WithStatus(status)) == set k | k in s.rows && s.rows[k].status == status;
    ListPosts(s, WithStatus(status), limit, offset, faults)
  }

  // ---------------------------------------------------------------- get

  /** `GET /article/{id}`: the row, 404 when there is none, 500 on any other storage error. */
  function GetPost(s: Store, id: nat, faults: Faults): (r: Response)
    ensures r.code in {StatusOK, StatusNotFound, StatusInternalServerError}
    ensures r.code == StatusNotFound <==> !faults.lookupFails && id !in s.rows
    ensures r.code == StatusInternalServerError <==> faults.lookupFails
    ensures r.code == StatusOK ==> id in s.rows && r.body == PostBody(s.rows[id])
    ensures r.code == StatusNotFound ==> r.body == ErrorBody(MsgNotFound)
    ensures r.code == StatusInternalServerError ==> r.body == ErrorBody(MsgGetFailed)
  {
    match First(s, id, faults)
    case Found(p) => Response(StatusOK, PostBody(p))
    case NotFound => Response(StatusNotFound, ErrorBody(MsgNotFound))
    case LookupFailed => Response(StatusInternalServerError, ErrorBody(MsgGetFailed))
  }

  // ---------------------------------------------------------------- update, patch, delete

  /** The existence check that opens the three mutating handlers: go on with a post, or answer at once. */
  datatype Fetched = Proceed(post: Post) | Halt(response: Response)

  /**
   The check as written: only `gorm.ErrRecordNotFound` stops the handler;
   any other lookup error is ignored and the handler goes on with the zero `Post`.
   */
  function FetchAsWritten(s: Store, id: nat, faults: Faults): (r: Fetched)
    ensures r.Halt? <==> !faults.lookupFails && id !in s.rows
    ensures r.Halt? ==> r.response == Response(StatusNotFound, ErrorBody(MsgNotFound))
    ensures r.Proceed? ==> r.post == if faults.lookupFails then ZeroPost else s.rows[id]
  {
    match First(s, id, faults)
    case Found(p) => Proceed(p)
    case NotFound => Halt(Response(StatusNotFound, ErrorBody(MsgNotFound)))
    case LookupFailed => Proceed(ZeroPost)
  }

  /** The check with the other lookup errors answered by 500, as `GetPost` does. */
  function Fetch(s: Store, id: nat, faults: Faults): (r: Fetched)
    ensures r.Proceed? <==> !faults.lookupFails && id in s.rows
    ensures r.Proceed? ==> r.post == s.rows[id]
    ensures faults.lookupFails ==> r == Halt(Response(StatusInternalServerError, ErrorBody(MsgGetFailed)))
    ensures !faults.lookupFails && id !in s.rows ==> r == Halt(Response(StatusNotFound, ErrorBody(MsgNotFound)))
  {
    match First(s, id, faults)
    case Found(p) => Proceed(p)
    case NotFound => Halt(Response(StatusNotFound, ErrorBody(MsgNotFound)))
    case LookupFailed => Halt(Response(StatusInternalServerError, ErrorBody(MsgGetFailed)))
  }

  /** The rest of `UpdatePost` once the existence check has passed or answered. */
  function UpdateWith(s: Store, fetched: Fetched, body: Option<Post>, now: Time, faults: Faults): Outcome {
    match fetched
    case Halt(r) => Outcome(r, s)
    case Proceed(post) =>
      match body
      case None => Reject(s, StatusBadRequest, MsgBadJson)
      case Some(data) =>
        if Violations(data) != [] then Reject(s, StatusBadRequest, ValidationErrors.Render(Violations(data)))
        else
          var replaced := post.(title := data.title, content := data.content,
                                category := data.category, status := data.status);
          match Save(s, replaced, now, faults)
          case None => Reject(s, StatusInternalServerError, MsgUpdateFailed)
          case Some(s') => Done(s', StatusOK, MsgUpdated)
  }

  /** `PUT /article/{id}`: replace the four text fields of an existing post. */
  function UpdatePost(s: Store, id: nat, body: Option<Post>, now: Time, faults: Faults): (o: Outcome)
    ensures o.response.code in {StatusOK, StatusBadRequest, StatusNotFound, StatusInternalServerError}
    ensures o.response.code != StatusOK ==> o.store == s
    ensures o.response.code == StatusNotFound <==> !faults.lookupFails && id !in s.rows
    ensures faults.lookupFails ==> o == Reject(s, StatusInternalServerError, MsgGetFailed)
    ensures !faults.lookupFails && id in s.rows && body.None? ==> o == Reject(s, StatusBadRequest, MsgBadJson)
    ensures !faults.lookupFails && id in s.rows && body.Some? && !Valid(body.value) ==>
      o == Reject(s, StatusBadRequest, ValidationErrors.Render(Violations(body.value)))
    ensures !faults.lookupFails && id in s.rows && body.Some? && Valid(body.value) && faults.writeFails ==>
      o == Reject(s, StatusInternalServerError, MsgUpdateFailed)
    ensures Wf(s) ==> (o.response.code == StatusOK <==>
      !faults.lookupFails && id in s.rows && body.Some? && Valid(body.value) && !faults.writeFails)
    ensures Wf(s) && o.response.code == StatusOK ==>
      && o.response.body == MessageBody(MsgUpdated)
      && o.store.nextId == s.nextId
      && o.store.rows.Keys == s.rows.Keys
      && (forall k | k in s.rows && k != id :: o.store.rows[k] == s.rows[k])
      && o.store.rows[id].id == id
      && o.store.rows[id].title == body.value.title
      && o.store.rows[id].content == body.value.content
      && o.store.rows[id].category == body.value.category
      && o.store.rows[id].status == body.value.status
      && o.store.rows[id].createdDate == s.rows[id].createdDate
      && o.store.rows[id].updatedDate == now
  {
    UpdateWith(s, Fetch(s, id, faults), body, now, faults)
  }

  /** `UpdatePost` exactly as written, lookup errors ignored; it agrees with `UpdatePost` whenever the lookup itself succeeds. */
  function UpdatePostAsWritten(s: Store, id: nat, body: Option<Post>, now: Time, faults: Faults): (o: Outcome)
    ensures !faults.lookupFails ==> o == UpdatePost(s, id, body, now, faults)
  {
    UpdateWith(s, FetchAsWritten(s, id, faults), body, now, faults)
  }

  /** The rest of `UpdatePostStatus` once the existence check has passed or answered. */
  function PatchWith(s: Store, fetched: Fetched, body: Option<string>, now: Time, faults: Faults): Outcome {
    match fetched
    case Halt(r) => Outcome(r, s)
    case Proceed(post) =>
      match body
      case None => Reject(s, StatusBadRequest, MsgBadJson)
      case Some(status) =>
        if StatusViolations(status) != [] then
          Reject(s, StatusBadRequest, ValidationErrors.Render(StatusViolations(status)))
        else
          match Save(s, post.(status := status), now, faults)
          case None => Reject(s, StatusInternalServerError, MsgStatusUpdateFailed)
          case Some(s') => Done(s', StatusOK, MsgStatusUpdated)
  }

  /** `PATCH /article/{id}/status`: replace the status of an existing post. */
  function UpdatePostStatus(s: Store, id: nat, body: Option<string>, now: Time, faults: Faults): (o: Outcome)
    ensures o.response.code in {StatusOK, StatusBadRequest, StatusNotFound, StatusInternalServerError}
    ensures o.response.code != StatusOK ==> o.store == s
    ensures o.response.code == StatusNotFound <==> !faults.lookupFails && id !in s.rows
    ensures faults.lookupFails ==> o == Reject(s, StatusInternalServerError, MsgGetFailed)
    ensures !faults.lookupFails && id in s.rows && body.None? ==> o == Reject(s, StatusBadRequest, MsgBadJson)
    ensures !faults.lookupFails && id in s.rows && body.Some? && !ValidStatus(body.value) ==>
      o == Reject(s, StatusBadRequest, ValidationErrors.Render(StatusViolations(body.value)))
    ensures !faults.lookupFails && id in s.rows && body.Some? && ValidStatus(body.value) && faults.writeFails ==>
      o == Reject(s, StatusInternalServerError, MsgStatusUpdateFailed)
    ensures Wf(s) ==> (o.response.code == StatusOK <==>
      !faults.lookupFails && id in s.rows && body.Some? && ValidStatus(body.value) && !faults.writeFails)
    ensures Wf(s) && o.response.code == StatusOK ==>
      && o.response.body == MessageBody(MsgStatusUpdated)
      && o.store.nextId == s.nextId
      && o.store.rows.Keys == s.rows.Keys
      && (forall k | k in s.rows && k != id :: o.store.rows[k] == s.rows[k])
      && o.store.rows[id] == s.rows[id].(status := body.value, updatedDate := now)
  {
    PatchWith(s, Fetch(s, id, faults), body, now, faults)
  }

  /** `UpdatePostStatus` exactly as written, lookup errors ignored; it agrees with `UpdatePostStatus` whenever the lookup itself succeeds. */
  function UpdatePostStatusAsWritten(s: Store, id: nat, body: Option<string>, now: Time, faults: Faults): (o: Outcome)
    ensures !faults.lookupFails ==> o == UpdatePostStatus(s, id, body, now, faults)
  {
    PatchWith(s, FetchAsWritten(s, id, faults), body, now, faults)
  }

  /**
   `DELETE /article/{id}`, as written. A lookup error other than not-found is
   ignored here too, but the zero `Post` it leaves has no primary key, so
   GORM refuses the delete and the answer is still 500.
   */
  function DeletePost(s: Store, id: nat, faults: Faults): (o: Outcome)
    ensures o.response.code in {StatusOK, StatusNotFound, StatusInternalServerError}
    ensures o.response.code != StatusOK ==> o.store == s
    ensures o.response.code == StatusNotFound <==> !faults.lookupFails && id !in s.rows
    ensures faults.lookupFails ==> o == Reject(s, StatusInternalServerError, MsgDeleteFailed)
    ensures !faults.lookupFails && id !in s.rows ==> o == Reject(s, StatusNotFound, MsgNotFound)
    ensures Wf(s) && !faults.lookupFails && id in s.rows && faults.writeFails ==>
      o == Reject(s, StatusInternalServerError, MsgDeleteFailed)
    ensures Wf(s) ==> (o.response.code == StatusOK <==> !faults.lookupFails && id in s.rows && !faults.writeFails)
    ensures Wf(s) && o.response.code == StatusOK ==>
      o == Done(s.(rows := s.rows - {id}), StatusOK, MsgDeleted)
  {
    match FetchAsWritten(s, id, faults)
    case Halt(r) => Outcome(r, s)
    case Proceed(post) =>
      match Delete(s, post, faults)
      case None => Reject(s, StatusInternalServerError, MsgDeleteFailed)
      case Some(s') => Done(s', StatusOK, MsgDeleted)
  }
}

=== FILE: models.dfy ===
/**
 The `Post` record and its validation tags (`required`, `min=N`,
 `oneof=publish draft trash`), as go-playground/validator applies them:
 the tags of a field are tried in order, the first one that fails is
 reported for that field, and the fields are visited in declaration order.
 */
module Models {
  import opened Wrappers
  import Text
  import Decimal

  /** A moment as a tick of a logical clock; 0 stands for Go's zero `time.Time`. */
  type Time = nat

  datatype Post = Post(
    id: nat,
    title: string,
    content: string,
    category: string,
    status: string,
    createdDate: Time,
    updatedDate: Time)

  /** The zero value of `Post`, which a failed `DB.First` leaves behind. */
  const ZeroPost: Post := Post(0, "", "", "", "", 0, 0)

  /** The values the `oneof` tag on `Status` admits. */
  const Statuses: seq<string> := ["publish", "draft", "trash"]

  /** The record's constraints in plain terms, independent of the tag machinery below. */
  predicate Valid(p: Post) {
    && p.title != "" && |p.title| >= 20
    && p.content != "" && |p.content| >= 200
    && p.category != "" && |p.category| >= 3
    && ValidStatus(p.status)
  }

  predicate ValidStatus(status: string) {
    status == "publish" || status == "draft" || status == "trash"
  }

  // ---------------------------------------------------------------- the tags

  /** One validator tag. `Min` counts characters (runes), as the validator does for strings. */
  datatype Rule = Required | Min(n: nat) | OneOf(options: seq<string>)

  /** A struct field: its Go name and the tags written on it, in order. */
  datatype FieldSpec = FieldSpec(name: string, rules: seq<Rule>)

  const TitleSpec: FieldSpec := FieldSpec("Title", [Required, Min(20)])
  const ContentSpec: FieldSpec := FieldSpec("Content", [Required, Min(200)])
  const CategorySpec: FieldSpec := FieldSpec("Category", [Required, Min(3)])
  /** Shared by `Post.Status` and the status-only body of the PATCH handler. */
  const StatusSpec: FieldSpec := FieldSpec("Status", [Required, OneOf(Statuses)])

  /** What the validator reports for one failed field: `Field()`, `Tag()` and `Param()`. */
  datatype FieldError = FieldError(field: string, tag: string, param: string)

  predicate Satisfies(value: string, rule: Rule) {
    match rule
    case Required => value != ""
    case Min(n) => |value| >= n
    case OneOf(options) => value in options
  }

  /** The tag name the validator reports for a rule. */
  function TagOf(rule: Rule): string {
    match rule
    case Required => "required"
    case Min(_) => "min"
    case OneOf(_) => "oneof"
  }

  /** The tag parameter as written after `=` in the struct tag. */
  function ParamOf(rule: Rule): string {
    match rule
    case Required => ""
    case Min(n) => Decimal.ToDecimal(n)
    case OneOf(options) => Text.Join(options, " ")
  }

  /** The position of the first rule `value` breaks, if any. */
  function FirstFailing(value: string, rules: seq<Rule>): (r: Option<nat>)
    ensures r.None? <==> forall i :: 0 <= i < |rules| ==> Satisfies(value, rules[i])
    ensures r.Some? ==> r.value < |rules| && !Satisfies(value, rules[r.value])
    ensures r.Some? ==> forall i :: 0 <= i < r.value ==> Satisfies(value, rules[i])
    decreases |rules|
  {
    if |rules| == 0 then None
    else if !Satisfies(value, rules[0]) then Some(0)
    else match FirstFailing(value, rules[1..])
      case None => None
      case Some(i) => Some(i + 1)
  }

  /** The errors one field contributes: none, or the first tag it fails. */
  function FieldErrors(spec: FieldSpec, value: string): (r: seq<FieldError>)
    ensures |r| <= 1
    ensures r == [] <==> forall i :: 0 <= i < |spec.rules| ==> Satisfies(value, spec.rules[i])
    ensures |r| == 1 ==> r[0].field == spec.name
  {
    match FirstFailing(value, spec.rules)
    case None => []
    case Some(i) => [FieldError(spec.name, TagOf(spec.rules[i]), ParamOf(spec.rules[i]))]
  }

  /** A field with its value, as `validate.Struct` visits it. */
  datatype Check = Check(spec: FieldSpec, value: string)

  /** The fields of `Post` that carry tags, in declaration order. */
  function Schema(p: Post): seq<Check> {
    [Check(TitleSpec, p.title), Check(ContentSpec, p.content),
     Check(CategorySpec, p.category), Check(StatusSpec, p.status)]
  }

  predicate Passes(c: Check) {
    forall i :: 0 <= i < |c.spec.rules| ==> Satisfies(c.value, c.spec.rules[i])
  }

  /** `validate.Struct` over a list of fields: each field's errors, in field order. */
  function CheckAll(checks: seq<Check>): (r: seq<FieldError>)
    ensures |r| <= |checks|
    ensures r == [] <==> forall k :: 0 <= k < |checks| ==> Passes(checks[k])
    decreases |checks|
  {
    if |checks| == 0 then []
    else FieldErrors(checks[0].spec, checks[0].value) + CheckAll(checks[1..])
  }

  /** The errors `validate.Struct(post)` reports. */
  function Violations(p: Post): (r: seq<FieldError>)
    ensures |r| <= 4
    ensures r == [] <==> Valid(p)
  {
    var checks := Schema(p);
    assert Passes(checks[0]) <==> p.title != "" && |p.title| >= 20 by {
      assert TitleSpec.rules[0] == Required && TitleSpec.rules[1] == Min(20);
    }
    assert Passes(checks[1]) <==> p.content != "" && |p.content| >= 200 by {
      assert ContentSpec.rules[0] == Required && ContentSpec.rules[1] == Min(200);
    }
    assert Passes(checks[2]) <==> p.category != "" && |p.category| >= 3 by {
      assert CategorySpec.rules[0] == Required && CategorySpec.rules[1] == Min(3);
    }
    assert Passes(checks[3]) <==> ValidStatus(p.status) by {
      assert StatusSpec.rules[0] == Required && StatusSpec.rules[1] == OneOf(Statuses);
    }
    CheckAll(checks)
  }

  /** The errors the status-only PATCH body reports: the `Status` tags alone. */
  function StatusViolations(status: string): (r: seq<FieldError>)
    ensures |r| <= 1
    ensures r == [] <==> ValidStatus(status)
  {
    assert StatusSpec.rules[0] == Required && StatusSpec.rules[1] == OneOf(Statuses);
    FieldErrors(StatusSpec, status)
  }

  // ---------------------------------------------------------------- properties

  /** A field with `required,min=N` (N > 0) reports `required` when empty, `min` when short, else nothing. */
  lemma RequiredMinErrors(name: string, n: nat, value: string)
    requires n > 0
    ensures FieldErrors(FieldSpec(name, [Required, Min(n)]), value) ==
      if value == "" then [FieldError(name, "required", "")]
      else if |value| < n then [FieldError(name, "min", Decimal.ToDecimal(n))]
      else []
  {
    var rules := [Required, Min(n)];
    if value != "" && |value| < n {
      assert FirstFailing(value, rules[1..]) == Some(0);
    }
  }

  lemma TitleErrors(title: string)
    ensures FieldErrors(TitleSpec, title) ==
      if title == "" then [FieldError("Title", "required", "")]
      else if |title| < 20 then [FieldError("Title", "min", "20")]
      else []
  {
    RequiredMinErrors("Title", 20, title);
    assert Decimal.ToDecimal(20) == "20" by { assert Decimal.ToDecimal(2) == "2"; }
  }

  lemma ContentErrors(content: string)
    ensures FieldErrors(ContentSpec, content) ==
      if content == "" then [FieldError("Content", "required", "")]
      else if |content| < 200 then [FieldError("Content", "min", "200")]
      else []
  {
    RequiredMinErrors("Content", 200, content);
    assert Decimal.ToDecimal(200) == "200" by {
      assert Decimal.ToDecimal(2) == "2";
      assert Decimal.ToDecimal(20) == "20";
    }
  }

  lemma CategoryErrors(category: string)
    ensures FieldErrors(CategorySpec, category) ==
      if category == "" then [FieldError("Category", "required", "")]
      else if |category| < 3 then [FieldError("Category", "min", "3")]
      else []
  {
    RequiredMinErrors("Category", 3, category);
  }

  /** The status field reports `required` when empty, `oneof` with the three values otherwise when unknown. */
  lemma StatusErrors(status: string)
    ensures StatusViolations(status) ==
      if status == "" then [FieldError("Status", "required", "")]
      else if !ValidStatus(status) then [FieldError("Status", "oneof", "publish draft trash")]
      else []
  {
    var rules := StatusSpec.rules;
    StatusesParam();
    if status != "" && !ValidStatus(status) {
      assert FirstFailing(status, rules[1..]) == Some(0);
    }
  }

  /** The `oneof` parameter as written in the tag. */
  lemma StatusesParam()
    ensures Text.Join(Statuses, " ") == "publish draft trash"
  {
    assert Statuses[1..] == ["draft", "trash"];
    assert Statuses[1..][1..] == ["trash"];
  }

  /** Validation looks at the four text fields only: id and timestamps never matter. */
  lemma ViolationsIgnoreIdAndDates(p: Post, id: nat, created: Time, updated: Time)
    ensures Violations(p.(id := id, createdDate := created, updatedDate := updated)) == Violations(p)
  {
    assert Schema(p.(id := id, createdDate := created, updatedDate := updated)) == Schema(p);
  }

  /** The errors are the title's, then the content's, then the category's, then exactly those the PATCH body would report for the status. */
  lemma ViolationsByField(p: Post)
    ensures Violations(p) ==
      FieldErrors(TitleSpec, p.title) + (FieldErrors(ContentSpec, p.content)
      + (FieldErrors(CategorySpec, p.category) + StatusViolations(p.status)))
  {
    CheckAllFour(Check(TitleSpec, p.title), Check(ContentSpec, p.content),
                 Check(CategorySpec, p.category), Check(StatusSpec, p.status));
  }

  lemma CheckAllFour(a: Check, b: Check, c: Check, d: Check)
    ensures CheckAll([a, b, c, d]) ==
      FieldErrors(a.spec, a.value) + (FieldErrors(b.spec, b.value)
      + (FieldErrors(c.spec, c.value) + FieldErrors(d.spec, d.value)))
  {
    var e := FieldErrors(d.spec, d.value);
    assert [d][1..] == [];
    assert CheckAll([d]) == e + [];
    assert e + [] == e;
    CheckAllCons(c, [d]);
    assert [c] + [d] == [c, d];
    CheckAllCons(b, [c, d]);
    assert [b] + [c, d] == [b, c, d];
    CheckAllCons(a, [b, c, d]);
    assert [a] + [b, c, d] == [a, b, c, d];
  }

  lemma CheckAllCons(c: Check, rest: seq<Check>)
    ensures CheckAll([c] + rest) == FieldErrors(c.spec, c.value) + CheckAll(rest)
  {
    assert ([c] + rest)[1..] == rest;
  }

  /** Declaration position of a tagged field of `Post`. */
  function FieldRank(name: string): nat {
    if name == "Title" then 0
    else if name == "Content" then 1
    else if name == "Category" then 2
    else if name == "Status" then 3
    else 4
  }

  predicate RankedFrom(checks: seq<Check>, lo: nat) {
    && (forall k :: 0 <= k < |checks| ==> lo <= FieldRank(checks[k].spec.name))
    && (forall k, l :: 0 <= k < l < |checks| ==> FieldRank(checks[k].spec.name) < FieldRank(checks[l].spec.name))
  }

  /** Fields listed in strictly increasing rank produce errors in strictly increasing rank. */
  lemma {:induction false} CheckAllOrdered(checks: seq<Check>, lo: nat)
    requires RankedFrom(checks, lo)
    ensures forall i :: 0 <= i < |CheckAll(checks)| ==> lo <= FieldRank(CheckAll(checks)[i].field)
    ensures forall i, j :: 0 <= i < j < |CheckAll(checks)| ==>
      FieldRank(CheckAll(checks)[i].field) < FieldRank(CheckAll(checks)[j].field)
    decreases |checks|
  {
    if |checks| > 0 {
      var head := FieldErrors(checks[0].spec, checks[0].value);
      var rank := FieldRank(checks[0].spec.name);
      assert RankedFrom(checks[1..], rank + 1);
      CheckAllOrdered(checks[1..], rank + 1);
      var rest := CheckAll(checks[1..]);
      assert CheckAll(checks) == head + rest;
    }
  }

  /** Each field reports at most once, and the errors follow declaration order: title, content, category, status. */
  lemma ViolationsInFieldOrder(p: Post)
    ensures forall i, j :: 0 <= i < j < |Violations(p)| ==>
      FieldRank(Violations(p)[i].field) < FieldRank(Violations(p)[j].field)
    ensures forall i :: 0 <= i < |Violations(p)| ==> FieldRank(Violations(p)[i].field) < 4
  {
    var c := Schema(p);
    assert RankedFrom(c, 0);
    CheckAllOrdered(c, 0);
    FieldsNamed(c);
  }

  lemma {:induction false} FieldsNamed(checks: seq<Check>)
    requires forall k :: 0 <= k < |checks| ==> FieldRank(checks[k].spec.name) < 4
    ensures forall i :: 0 <= i < |CheckAll(checks)| ==> FieldRank(CheckAll(checks)[i].field) < 4
    decreases |checks|
  {
    if |checks| > 0 {
      FieldsNamed(checks[1..]);
    }
  }
}

=== FILE: storage.dfy ===
/**
 The article table as the handlers see it through GORM: a map from id to
 `Post` plus the next auto-increment id. Every storage call may fail; which
 ones fail is an input (`Faults`), standing for the connection and the
 database that the handlers cannot see.
 */
module Storage {
  import opened Wrappers
  import opened Models

  datatype Store = Store(rows: map<nat, Post>, nextId: nat)

  /** Ids are positive, below the counter, equal to the key, and no row was updated before it was created. */
  predicate Wf(s: Store) {
    && s.nextId >= 1
    && forall k | k in s.rows ::
         && 1 <= k < s.nextId
         && s.rows[k].id == k
         && s.rows[k].createdDate <= s.rows[k].updatedDate
  }

  /** Every stored row satisfies the `Post` validation tags. */
  predicate AllValid(s: Store) {
    forall k | k in s.rows :: Valid(s.rows[k])
  }

  /** Every stored row was last updated at or before `now`. */
  predicate DatedBy(s: Store, now: Time) {
    forall k | k in s.rows :: s.rows[k].updatedDate <= now
  }

  /** Which storage calls of one request report an error. */
  datatype Faults = Faults(countFails: bool, findFails: bool, lookupFails: bool, writeFails: bool)

  const NoFaults: Faults := Faults(false, false, false, false)

  // ---------------------------------------------------------------- reads

  /** What `DB.First(&post, id)` yields: the row, `gorm.ErrRecordNotFound`, or another error. */
  datatype Lookup = Found(post: Post) | NotFound | LookupFailed

  /** A lookup by primary key: the row found carries the asked id, and not-found means no stored row has it. */
  function First(s: Store, id: nat, faults: Faults): (r: Lookup)
    ensures r.LookupFailed? <==> faults.lookupFails
    ensures Wf(s) && r.Found? ==> r.post in s.rows.Values && r.post.id == id
    ensures Wf(s) && r.NotFound? ==> forall k | k in s.rows :: s.rows[k].id != id
  {
    if faults.lookupFails then LookupFailed
    else if id in s.rows then Found(s.rows[id])
    else NotFound
  }

  /** The optional `WHERE status = ?` of the listing queries. */
  datatype Filter = AllRows | WithStatus(status: string)

  predicate Matches(p: Post, f: Filter) {
    match f
    case AllRows => true
    case WithStatus(status) => p.status == status
  }

  /** The ids of the rows a filter selects. */
  function MatchingIds(s: Store, f: Filter): set<nat> {
    set k | k in s.rows && Matches(s.rows[k], f)
  }

  /** `Count(&total)`: how many rows the filter selects. */
  function Count(s: Store, f: Filter): nat {
    |MatchingIds(s, f)|
  }

  /** The selected ids in `[lo, hi)`, in increasing order. */
  function IdsBetween(rows: map<nat, Post>, f: Filter, lo: nat, hi: nat): (ids: seq<nat>)
    ensures forall i :: 0 <= i < |ids| ==> lo <= ids[i] < hi && ids[i] in rows && Matches(rows[ids[i]], f)
    ensures forall i, j :: 0 <= i < j < |ids| ==> ids[i] < ids[j]
    ensures forall k :: lo <= k < hi && k in rows && Matches(rows[k], f) ==> k in ids
    decreases hi - lo
  {
    if lo >= hi then []
    else if lo in rows && Matches(rows[lo], f) then [lo] + IdsBetween(rows, f, lo + 1, hi)
    else IdsBetween(rows, f, lo + 1, hi)
  }

  /** The rows the filter selects, in id order (the storage default this layer relies on). */
  function Rows(s: Store, f: Filter): (r: seq<Post>)
    ensures forall i :: 0 <= i < |r| ==> Matches(r[i], f)
  {
    var ids := IdsBetween(s.rows, f, 0, s.nextId);
    seq(|ids|, i requires 0 <= i < |ids| => s.rows[ids[i]])
  }

  /** `Limit(limit).Offset(offset)`: skip `offset` rows, then keep at most `limit` (0 keeps all). */
  function Page(rows: seq<Post>, limit: nat, offset: nat): (r: seq<Post>)
    ensures offset >= |rows| ==> r == []
    ensures limit > 0 ==> |r| <= limit
    ensures offset < |rows| ==> |r| == if limit == 0 || offset + limit > |rows| then |rows| - offset else limit
    ensures forall i :: 0 <= i < |r| ==> offset + i < |rows| && r[i] == rows[offset + i]
  {
    if offset >= |rows| then []
    else if limit == 0 || offset + limit > |rows| then rows[offset..]
    else rows[offset..offset + limit]
  }

  // ---------------------------------------------------------------- writes

  /** The id `DB.Create` gives a post: the post's own when non-zero, else the next auto-increment value. */
  function InsertedId(s: Store, p: Post): nat {
    if p.id != 0 then p.id else s.nextId
  }

  /** A row as `DB.Create` stores it: under `id`, each zero timestamp set to `now`, a non-zero one kept. */
  function Filled(p: Post, id: nat, now: Time): Post {
    p.(id := id,
       createdDate := if p.createdDate == 0 then now else p.createdDate,
       updatedDate := if p.updatedDate == 0 then now else p.updatedDate)
  }

  /** A row numbered and dated by the table alone: the given id, both timestamps `now`. */
  function Stamped(p: Post, id: nat, now: Time): Post {
    p.(id := id, createdDate := now, updatedDate := now)
  }

  /** A post that brings no id and no timestamps of its own. */
  predicate Unnumbered(p: Post) {
    p.id == 0 && p.createdDate == 0 && p.updatedDate == 0
  }

  predicate AllUnnumbered(ps: seq<Post>) {
    forall i :: 0 <= i < |ps| ==> Unnumbered(ps[i])
  }

  /** Posts that leave the choice of id to the table; their timestamps may be their own. */
  predicate ZeroIds(ps: seq<Post>) {
    forall i :: 0 <= i < |ps| ==> ps[i].id == 0
  }

  /** The timestamps `DB.Create` would give the post are in order and not after `now`. */
  predicate SaneDates(p: Post, now: Time) {
    var q := Filled(p, 0, now);
    q.createdDate <= q.updatedDate <= now
  }

  /**
   One `INSERT`: a duplicate primary key is refused; an explicit id at or
   above the auto-increment counter moves the counter past it.
   */
  function Insert(s: Store, p: Post, now: Time): (r: Option<Store>)
    ensures p.id != 0 && p.id in s.rows ==> r.None?
    ensures r.Some? ==> InsertedId(s, p) !in s.rows && r.value.rows.Keys == s.rows.Keys + {InsertedId(s, p)}
    ensures r.Some? ==> r.value.rows[InsertedId(s, p)] == Filled(p, InsertedId(s, p), now)
    ensures r.Some? ==> forall k | k in s.rows :: r.value.rows[k] == s.rows[k]
    ensures r.Some? ==> s.nextId <= r.value.nextId && InsertedId(s, p) < r.value.nextId
  {
    var id := InsertedId(s, p);
    if id in s.rows then None
    else Some(Store(s.rows[id := Filled(p, id, now)], if id < s.nextId then s.nextId else id + 1))
  }

  /** In a well-formed table an insert fails only on a taken explicit id, and keeps the table well formed when the dates are sane. */
  lemma InsertWf(s: Store, p: Post, now: Time)
    requires Wf(s)
    ensures Insert(s, p, now).Some? <==> p.id == 0 || p.id !in s.rows
    ensures Insert(s, p, now).Some? && p.id == 0 ==> Insert(s, p, now).value.nextId == s.nextId + 1
    ensures Insert(s, p, now).Some? && SaneDates(p, now) ==> Wf(Insert(s, p, now).value)
  {
  }

  /** `DB.Create(&post)`: one row, under the post's own id or the next one. */
  function CreateOne(s: Store, p: Post, now: Time, faults: Faults): (r: Option<Store>)
    ensures p.id != 0 && p.id in s.rows ==> r.None?
    ensures faults.writeFails ==> r.None?
    ensures r.Some? ==> InsertedId(s, p) !in s.rows && r.value.rows.Keys == s.rows.Keys + {InsertedId(s, p)}
    ensures r.Some? ==> r.value.rows[InsertedId(s, p)] == Filled(p, InsertedId(s, p), now)
    ensures r.Some? ==> forall k | k in s.rows :: r.value.rows[k] == s.rows[k]
  {
    if faults.writeFails then None else Insert(s, p, now)
  }

  /** On a well-formed table a create fails only on a write error or a taken id, and a zero id takes the next one. */
  lemma CreateOneWf(s: Store, p: Post, now: Time, faults: Faults)
    ensures Wf(s) ==>
      (CreateOne(s, p, now, faults).Some? <==> !faults.writeFails && (p.id == 0 || p.id !in s.rows))
    ensures Wf(s) && CreateOne(s, p, now, faults).Some? && p.id == 0 ==>
      CreateOne(s, p, now, faults).value.nextId == s.nextId + 1
  {
    if Wf(s) {
      InsertWf(s, p, now);
    }
  }

  /** The rows of one multi-row `INSERT`, in order; a duplicate key anywhere refuses the whole statement. */
  function InsertAll(s: Store, ps: seq<Post>, now: Time): Option<Store>
    decreases |ps|
  {
    if |ps| == 0 then Some(s)
    else
      match Insert(s, ps[0], now)
      case None => None
      case Some(s') => InsertAll(s', ps[1..], now)
  }

  /**
   A successful batch insert keeps every existing row, adds one row per post,
   and stores each post that brought its own id under that id, which was free.
   */
  lemma {:induction false} InsertAllKeeps(s: Store, ps: seq<Post>, now: Time)
    ensures InsertAll(s, ps, now).Some? ==>
      && s.rows.Keys <= InsertAll(s, ps, now).value.rows.Keys
      && s.nextId <= InsertAll(s, ps, now).value.nextId
      && (forall k | k in s.rows :: InsertAll(s, ps, now).value.rows[k] == s.rows[k])
      && |InsertAll(s, ps, now).value.rows| == |s.rows| + |ps|
      && (forall i :: 0 <= i < |ps| && ps[i].id != 0 ==>
            ps[i].id !in s.rows && ps[i].id in InsertAll(s, ps, now).value.rows &&
            InsertAll(s, ps, now).value.rows[ps[i].id] == Filled(ps[i], ps[i].id, now))
    decreases |ps|
  {
    if |ps| > 0 && Insert(s, ps[0], now).Some? {
      var s' := Insert(s, ps[0], now).value;
      var rest := ps[1..];
      InsertAllStep(s, ps, now);
      InsertAllKeeps(s', rest, now);
      if InsertAll(s', rest, now).Some? {
        var t := InsertAll(s', rest, now).value;
        forall i | 0 <= i < |ps| && ps[i].id != 0
          ensures ps[i].id !in s.rows && ps[i].id in t.rows && t.rows[ps[i].id] == Filled(ps[i], ps[i].id, now)
        {
          if i > 0 {
            assert rest[i - 1] == ps[i];
          }
        }
      }
    }
  }

  /** Every stored id is below the auto-increment counter. */
  predicate Below(s: Store) {
    forall k | k in s.rows :: k < s.nextId
  }

  /** A post without an id goes in under the next id, with its zero timestamps set to `now`. */
  lemma InsertFresh(s: Store, p: Post, now: Time)
    requires Below(s) && p.id == 0
    ensures Insert(s, p, now).Some?
    ensures Below(Insert(s, p, now).value)
    ensures Insert(s, p, now).value.nextId == s.nextId + 1
    ensures Insert(s, p, now).value.rows == s.rows[s.nextId := Filled(p, s.nextId, now)]
  {
  }

  lemma InsertAllStep(s: Store, ps: seq<Post>, now: Time)
    requires |ps| > 0 && Insert(s, ps[0], now).Some?
    ensures InsertAll(s, ps, now) == InsertAll(Insert(s, ps[0], now).value, ps[1..], now)
  {
  }

  /** Posts without ids are all accepted, under the ids from the counter on. */
  lemma {:induction false} InsertAllFresh(s: Store, ps: seq<Post>, now: Time)
    requires Below(s) && ZeroIds(ps)
    ensures InsertAll(s, ps, now).Some?
    ensures InsertAll(s, ps, now).value.nextId == s.nextId + |ps|
    ensures forall k :: k in InsertAll(s, ps, now).value.rows <==> k in s.rows || s.nextId <= k < s.nextId + |ps|
    decreases |ps|
  {
    if |ps| > 0 {
      InsertFresh(s, ps[0], now);
      var s' := Insert(s, ps[0], now).value;
      var rest := ps[1..];
      InsertAllStep(s, ps, now);
      assert ZeroIds(rest) by {
        assert forall i :: 0 <= i < |rest| ==> rest[i] == ps[i + 1];
      }
      InsertAllFresh(s', rest, now);
      var t := InsertAll(s', rest, now).value;
      assert forall k :: k in t.rows <==> k in s.rows || s.nextId <= k < s.nextId + |ps| by {
        assert forall k :: k in s'.rows <==> k in s.rows || k == s.nextId;
      }
    }
  }

  /** A key from the counter on holds the post at that offset, numbered with the key, its zero timestamps set to `now`. */
  lemma {:induction false} InsertAllFreshAt(s: Store, ps: seq<Post>, now: Time, k: nat)
    requires Below(s) && ZeroIds(ps) && s.nextId <= k < s.nextId + |ps|
    ensures InsertAll(s, ps, now).Some?
    ensures k in InsertAll(s, ps, now).value.rows
    ensures InsertAll(s, ps, now).value.rows[k] == Filled(ps[k - s.nextId], k, now)
    decreases |ps|
  {
    InsertFresh(s, ps[0], now);
    var s' := Insert(s, ps[0], now).value;
    var rest := ps[1..];
    InsertAllStep(s, ps, now);
    assert ZeroIds(rest) by {
      assert forall j :: 0 <= j < |rest| ==> rest[j] == ps[j + 1];
    }
    InsertAllFresh(s', rest, now);
    if k == s.nextId {
      InsertAllKeeps(s', rest, now);
      assert k in s'.rows;
    } else {
      InsertAllFreshAt(s', rest, now, k);
      assert rest[k - s'.nextId] == ps[k - s.nextId];
    }
  }

  /** A batch that leaves every id to the table is never refused by the table. */
  lemma InsertAllAccepts(s: Store, ps: seq<Post>, now: Time)
    ensures Below(s) && ZeroIds(ps) ==> InsertAll(s, ps, now).Some?
  {
    if Below(s) && ZeroIds(ps) {
      InsertAllFresh(s, ps, now);
    }
  }

  /** `DB.Create(&posts)`: all rows as one statement; an empty slice is refused. */
  function CreateMany(s: Store, ps: seq<Post>, now: Time, faults: Faults): (r: Option<Store>)
    ensures r.Some? ==> !faults.writeFails && |ps| > 0
    ensures r.Some? ==> s.rows.Keys <= r.value.rows.Keys && (forall k | k in s.rows :: r.value.rows[k] == s.rows[k])
    ensures r.Some? ==> |r.value.rows| == |s.rows| + |ps|
    ensures r.Some? ==> forall i :: 0 <= i < |ps| && ps[i].id != 0 ==>
              ps[i].id !in s.rows && ps[i].id in r.value.rows && r.value.rows[ps[i].id] == Filled(ps[i], ps[i].id, now)
  {
    InsertAllKeeps(s, ps, now);
    if faults.writeFails || |ps| == 0 then None else InsertAll(s, ps, now)
  }

  /**
   `DB.Save(&post)`. With a non-zero id it updates every column and refreshes
   the update time, and inserts under that id when no row has it; with a zero
   id it inserts under the next id.
   */
  function Save(s: Store, p: Post, now: Time, faults: Faults): (r: Option<Store>)
    ensures Wf(s) && (p.id == 0 || p.id in s.rows) ==> (r.Some? <==> !faults.writeFails)
    ensures r.Some? && p.id != 0 && p.id in s.rows ==>
      && r.value.nextId == s.nextId
      && r.value.rows.Keys == s.rows.Keys
      && (forall k | k in s.rows && k != p.id :: r.value.rows[k] == s.rows[k])
      && r.value.rows[p.id] == p.(updatedDate := now)
    ensures r.Some? && Wf(s) && p.id in s.rows && p.createdDate <= now ==> Wf(r.value)
    ensures r.Some? && Wf(s) && p.id == 0 ==>
      && s.nextId !in s.rows
      && r.value.rows.Keys == s.rows.Keys + {s.nextId}
      && r.value.rows[s.nextId] == Filled(p, s.nextId, now)
      && (forall k | k in s.rows :: r.value.rows[k] == s.rows[k])
    ensures r.Some? && p.id != 0 && p.id !in s.rows ==>
      r.value.rows.Keys == s.rows.Keys + {p.id} && r.value.rows[p.id] == Filled(p.(updatedDate := now), p.id, now)
  {
    if faults.writeFails then None
    else if p.id != 0 && p.id in s.rows then Some(s.(rows := s.rows[p.id := p.(updatedDate := now)]))
    else if p.id != 0 then Insert(s, p.(updatedDate := now), now)
    else Insert(s, p, now)
  }

  /** `DB.Delete(&post)`: remove the row with the post's id; GORM refuses a delete without a primary key. */
  function Delete(s: Store, p: Post, faults: Faults): (r: Option<Store>)
    ensures r.Some? <==> !faults.writeFails && p.id != 0
    ensures r.Some? ==> r.value.rows.Keys == s.rows.Keys - {p.id} && r.value.nextId == s.nextId
    ensures r.Some? ==> forall k | k in r.value.rows :: r.value.rows[k] == s.rows[k]
    ensures r.Some? ==> |r.value.rows| == |s.rows| - (if p.id in s.rows then 1 else 0)
    ensures r.Some? && Wf(s) ==> Wf(r.value)
  {
    if faults.writeFails || p.id == 0 then None
    else Some(s.(rows := s.rows - {p.id}))
  }

  // ---------------------------------------------------------------- properties

  /** The selected ids in `[lo, hi)`, as a set. */
  function IdSet(rows: map<nat, Post>, f: Filter, lo: nat, hi: nat): set<nat> {
    set k | k in rows && lo <= k < hi && Matches(rows[k], f)
  }

  lemma {:induction false} IdsBetweenCount(rows: map<nat, Post>, f: Filter, lo: nat, hi: nat)
    ensures |IdsBetween(rows, f, lo, hi)| == |IdSet(rows, f, lo, hi)|
    decreases hi - lo
  {
    if lo >= hi {
      assert IdSet(rows, f, lo, hi) == {};
    } else {
      IdsBetweenCount(rows, f, lo + 1, hi);
      IdSetStep(rows, f, lo, hi);
    }
  }

  lemma IdSetStep(rows: map<nat, Post>, f: Filter, lo: nat, hi: nat)
    requires lo < hi
    ensures lo !in IdSet(rows, f, lo + 1, hi)
    ensures IdSet(rows, f, lo, hi) ==
      (if lo in rows && Matches(rows[lo], f) then {lo} else {}) + IdSet(rows, f, lo + 1, hi)
  {
  }

  /** The listed rows are exactly as many as `Count` reports. */
  lemma RowsCount(s: Store, f: Filter)
    requires Wf(s)
    ensures |Rows(s, f)| == Count(s, f)
  {
    IdsBetweenCount(s.rows, f, 0, s.nextId);
    assert IdSet(s.rows, f, 0, s.nextId) == MatchingIds(s, f);
  }

  /** A stored row appears in the listing exactly when the filter selects it, and the listing is in increasing id order. */
  lemma RowsContents(s: Store, f: Filter)
    requires Wf(s)
    ensures forall k | k in s.rows :: s.rows[k] in Rows(s, f) <==> Matches(s.rows[k], f)
    ensures forall p | p in Rows(s, f) :: p.id in s.rows && s.rows[p.id] == p
    ensures forall i, j :: 0 <= i < j < |Rows(s, f)| ==> Rows(s, f)[i].id < Rows(s, f)[j].id
  {
    var ids := IdsBetween(s.rows, f, 0, s.nextId);
    var r := Rows(s, f);
    forall k | k in s.rows && Matches(s.rows[k], f) ensures s.rows[k] in r {
      assert k in ids;
      var i :| 0 <= i < |ids| && ids[i] == k;
      assert r[i] == s.rows[k];
    }
    forall p | p in r ensures p.id in s.rows && s.rows[p.id] == p {
      var i :| 0 <= i < |r| && r[i] == p;
      assert p == s.rows[ids[i]];
    }
  }

  /** Two consecutive pages of the same size are the page of twice that size: pages are disjoint and leave no gap. */
  lemma PagesAdjoin(rows: seq<Post>, limit: nat, offset: nat)
    requires limit > 0
    ensures Page(rows, limit, offset) + Page(rows, limit, offset + limit) == Page(rows, 2 * limit, offset)
  {
  }
}

=== FILE: text.dfy ===
/**
 The string operations of Go's `strings` package that the request handlers
 use: `strings.Join` with the `", "` separator, a splitter that undoes it,
 and `strings.ToLower` on ASCII text.
 */
module Text {

  /** The separator `parseValidationError` puts between messages. */
  const Sep: string := ", "

  /** `strings.Join`: the parts in order, with `sep` between consecutive ones. */
  function Join(parts: seq<string>, sep: string): (r: string)
    ensures |parts| == 0 ==> r == ""
    ensures |parts| > 0 ==> |r| == Total(parts) + |sep| * (|parts| - 1)
    decreases |parts|
  {
    if |parts| == 0 then ""
    else if |parts| == 1 then parts[0]
    else parts[0] + sep + Join(parts[1..], sep)
  }

  /** The summed length of the parts. */
  function Total(parts: seq<string>): nat
    decreases |parts|
  {
    if |parts| == 0 then 0 else |parts[0]| + Total(parts[1..])
  }

  /** True when `s` holds the separator `", "` at position `i`. */
  predicate SepAt(s: string, i: nat) {
    i + 1 < |s| && s[i] == ',' && s[i + 1] == ' '
  }

  /** The first position at or after `from` holding the separator, or `|s|` if there is none. */
  function FindSep(s: string, from: nat): (i: nat)
    requires from <= |s|
    ensures from <= i <= |s|
    ensures i < |s| ==> SepAt(s, i)
    ensures forall j :: from <= j < i ==> !SepAt(s, j)
    decreases |s| - from
  {
    if from == |s| then |s|
    else if SepAt(s, from) then from
    else FindSep(s, from + 1)
  }

  /** Cuts `s` at every occurrence of `", "`; the pieces never contain the separator. */
  function Split(s: string): (parts: seq<string>)
    ensures |parts| >= 1
    ensures forall k, j :: 0 <= k < |parts| && 0 <= j ==> !SepAt(parts[k], j)
    decreases |s|
  {
    var i := FindSep(s, 0);
    assert forall j :: 0 <= j && SepAt(s[..i], j) ==> SepAt(s, j) && j < i;
    if i == |s| then [s] else [s[..i]] + Split(s[i + 2..])
  }

  /** The search for the separator walks over a comma-free stretch and stops where the separator starts. */
  lemma {:induction false} FindSepSkips(s: string, from: nat, stop: nat)
    requires from <= stop <= |s|
    requires forall j :: from <= j < stop ==> s[j] != ','
    requires stop == |s| || SepAt(s, stop)
    ensures FindSep(s, from) == stop
    decreases stop - from
  {
    if from < stop {
      assert !SepAt(s, from);
      FindSepSkips(s, from + 1, stop);
    }
  }

  /** Splitting a join of comma-free parts gives the parts back. */
  lemma {:induction false} SplitJoin(parts: seq<string>)
    requires |parts| >= 1
    requires forall k :: 0 <= k < |parts| ==> ',' !in parts[k]
    ensures Split(Join(parts, Sep)) == parts
    decreases |parts|
  {
    var a := parts[0];
    assert forall j :: 0 <= j < |a| ==> a[j] != ',' by {
      forall j | 0 <= j < |a| ensures a[j] != ',' {
        assert a[j] in a;
      }
    }
    if |parts| == 1 {
      FindSepSkips(a, 0, |a|);
    } else {
      var rest := Join(parts[1..], Sep);
      var s := a + Sep + rest;
      assert Join(parts, Sep) == s;
      assert forall j :: 0 <= j < |a| ==> s[j] != ',';
      assert SepAt(s, |a|);
      FindSepSkips(s, 0, |a|);
      assert s[..|a|] == a;
      assert s[|a| + 2..] == rest;
      SplitJoin(parts[1..]);
      assert parts == [a] + parts[1..];
    }
  }

  predicate IsUpper(c: char) {
    'A' <= c <= 'Z'
  }

  /** One character of `strings.ToLower`, for the ASCII letters. */
  function LowerChar(c: char): (r: char)
    ensures !IsUpper(r)
    ensures IsUpper(c) ==> r as int == c as int + 32
    ensures !IsUpper(c) ==> r == c
  {
    if IsUpper(c) then (c as int + 32) as char else c
  }

  /** `strings.ToLower` on ASCII text: letters are lowered one by one, the rest is kept. */
  function ToLower(s: string): (r: string)
    ensures |r| == |s|
    ensures forall i :: 0 <= i < |s| ==> r[i] == LowerChar(s[i])
  {
    seq(|s|, i requires 0 <= i < |s| => LowerChar(s[i]))
  }

  /** Lowering is idempotent. */
  lemma ToLowerIdempotent(s: string)
    ensures ToLower(ToLower(s)) == ToLower(s)
  {
  }

  /** Lowering neither adds nor removes commas. */
  lemma ToLowerKeepsCommas(s: string)
    ensures ',' in ToLower(s) <==> ',' in s
  {
    var r := ToLower(s);
    if ',' in r {
      var i :| 0 <= i < |r| && r[i] == ',';
      assert s[i] == ',';
    }
    if ',' in s {
      var i :| 0 <= i < |s| && s[i] == ',';
      assert r[i] == ',';
    }
  }
}

=== FILE: validation_errors.dfy ===
/**
 `parseValidationError`: one readable message per validator error, picked by
 the error's tag and naming the lower-cased field, all joined with `", "`.
 */
module ValidationErrors {
  import opened Models
  import Text

  /** The message for one error; `required`, `oneof` and `min` have their own template, any other tag a generic one. */
  function Message(e: FieldError): string {
    var field := Text.ToLower(e.field);
    if e.tag == "required" then "Field '" + field + "' wajib diisi"
    else if e.tag == "oneof" then "Field '" + field + "' harus salah satu dari: " + e.param
    else if e.tag == "min" then "Field '" + field + "' minimal " + e.param + " karakter"
    else "Field '" + field + "' tidak valid"
  }

  /** The messages of the errors, in the validator's order. */
  function Messages(errs: seq<FieldError>): seq<string> {
    seq(|errs|, i requires 0 <= i < |errs| => Message(errs[i]))
  }

  /** The response text for a list of validator errors. */
  function Render(errs: seq<FieldError>): string {
    Text.Join(Messages(errs), Text.Sep)
  }

  /** The loop of `parseValidationError`: collect the messages one by one, then join them. */
  method ParseValidationError(errs: seq<FieldError>) returns (msg: string)
    ensures msg == Render(errs)
  {
    var msgs: seq<string> := [];
    for i := 0 to |errs|
      invariant msgs == Messages(errs[..i])
    {
      assert errs[..i + 1] == errs[..i] + [errs[i]];
      msgs := msgs + [Message(errs[i])];
    }
    assert errs[..|errs|] == errs;
    msg := Text.Join(msgs, Text.Sep);
  }

  // ---------------------------------------------------------------- properties

  /** The message names the field in lower case, whatever case the validator reports it in. */
  lemma MessageIgnoresFieldCase(e: FieldError)
    ensures Message(e.(field := Text.ToLower(e.field))) == Message(e)
  {
    Text.ToLowerIdempotent(e.field);
  }

  /** Every message opens with `Field '`, then the field in lower case, then a closing quote. */
  lemma MessageNamesField(e: FieldError)
    ensures var f := Text.ToLower(e.field);
      |Message(e)| > 7 + |f| && Message(e)[..7 + |f|] == "Field '" + f && Message(e)[7 + |f|] == '\''
  {
    var f := Text.ToLower(e.field);
    var head := "Field '" + f;
    var tail :=
      if e.tag == "required" then "' wajib diisi"
      else if e.tag == "oneof" then "' harus salah satu dari: " + e.param
      else if e.tag == "min" then "' minimal " + (e.param + " karakter")
      else "' tidak valid";
    assert Message(e) == head + tail;
    assert (head + tail)[..|head|] == head;
  }

  /** Only the `oneof` and `min` templates show the tag parameter. */
  lemma MessageIgnoresParam(e: FieldError, param: string)
    requires e.tag != "oneof" && e.tag != "min"
    ensures Message(e.(param := param)) == Message(e)
  {
  }

  predicate CommaFree(e: FieldError) {
    ',' !in e.field && ',' !in e.param
  }

  /** No template adds a comma of its own. */
  lemma MessageCommaFree(e: FieldError)
    requires CommaFree(e)
    ensures ',' !in Message(e)
  {
    Text.ToLowerKeepsCommas(e.field);
    var field := Text.ToLower(e.field);
    assert ',' !in "Field '";
    if e.tag == "required" {
      assert ',' !in "' wajib diisi";
    } else if e.tag == "oneof" {
      assert ',' !in "' harus salah satu dari: ";
    } else if e.tag == "min" {
      assert ',' !in "' minimal ";
      assert ',' !in " karakter";
    } else {
      assert ',' !in "' tidak valid";
    }
  }

  /** The rendered text holds exactly one message per error, in order: cutting at `", "` gives them back. */
  lemma RenderOnePerError(errs: seq<FieldError>)
    requires |errs| >= 1
    requires AllCommaFree(errs)
    ensures Text.Split(Render(errs)) == Messages(errs)
    ensures |Text.Split(Render(errs))| == |errs|
  {
    var ms := Messages(errs);
    forall k | 0 <= k < |ms| ensures ',' !in ms[k] {
      MessageCommaFree(errs[k]);
    }
    Text.SplitJoin(ms);
  }

  predicate AllCommaFree(errs: seq<FieldError>) {
    forall i :: 0 <= i < |errs| ==> CommaFree(errs[i])
  }

  /** Every error `validate.Struct(post)` can report is free of commas. */
  lemma ViolationsCommaFree(p: Post)
    ensures AllCommaFree(Violations(p))
  {
    ViolationsByField(p);
    var t := FieldErrors(TitleSpec, p.title);
    var c := FieldErrors(ContentSpec, p.content);
    var g := FieldErrors(CategorySpec, p.category);
    var st := StatusViolations(p.status);
    TitleCommaFree(p.title);
    ContentCommaFree(p.content);
    CategoryCommaFree(p.category);
    StatusCommaFree(p.status);
    CommaFreeAppend(g, st);
    CommaFreeAppend(c, g + st);
    CommaFreeAppend(t, c + (g + st));
  }

  lemma TitleCommaFree(title: string)
    ensures AllCommaFree(FieldErrors(TitleSpec, title))
  {
    TitleErrors(title);
    assert ',' !in "Title" && ',' !in "20" && ',' !in "";
  }

  lemma ContentCommaFree(content: string)
    ensures AllCommaFree(FieldErrors(ContentSpec, content))
  {
    ContentErrors(content);
    assert ',' !in "Content" && ',' !in "200" && ',' !in "";
  }

  lemma CategoryCommaFree(category: string)
    ensures AllCommaFree(FieldErrors(CategorySpec, category))
  {
    CategoryErrors(category);
    assert ',' !in "Category" && ',' !in "3" && ',' !in "";
  }

  lemma StatusCommaFree(status: string)
    ensures AllCommaFree(StatusViolations(status))
  {
    StatusErrors(status);
    assert ',' !in "Status" && ',' !in "publish draft trash" && ',' !in "";
  }

  lemma CommaFreeAppend(a: seq<FieldError>, b: seq<FieldError>)
    requires AllCommaFree(a) && AllCommaFree(b)
    ensures AllCommaFree(a + b)
  {
    forall i | 0 <= i < |a + b| ensures CommaFree((a + b)[i]) {
      if i >= |a| { assert (a + b)[i] == b[i - |a|]; }
    }
  }

  /** An invalid post's error text carries one message per violated field. */
  lemma ViolationMessages(p: Post)
    requires !Valid(p)
    ensures Text.Split(Render(Violations(p))) == Messages(Violations(p))
    ensures |Text.Split(Render(Violations(p)))| == |Violations(p)|
  {
    ViolationsCommaFree(p);
    RenderOnePerError(Violations(p));
  }
}

=== FILE: wrappers.dfy ===
/** The optional value used wherever a Go call returns a value or an error. */
module Wrappers {

  datatype Option<+T> = None | Some(value: T)
}
